=== FILE: README.md ===
# arlogi, modelled in Dafny

arlogi is a Python logging library built on the standard `logging` module.
This project models its core and proves properties of that model:

- **TRACE level** (`levels.dfy`). Registers level 5 under the name `TRACE` in
  the `logging` module's tables and installs `Logger.trace`.
- **TraceLogger** (`tracelogger.dfy`). Every level method runs the same
  preprocessing before the standard dispatch:
  - a `from` / `from_caller` / `from_` marker is resolved against the call
    stack and appended to the message as a `[name()]`,
    `[from .name()]` or `[from module.name()]` tag;
  - unknown keyword arguments are moved into `extra`;
  - `stacklevel` defaults to 2.
- **Handlers** (`handlers.dfy`):
  - the colored console handler's style table, level indicator and message
    style;
  - the JSON formatter's field assembly and its `json.dumps(..., default=str)`
    encoding (`values.dfy`);
  - the syslog handler's fallback to UDP on localhost when `/dev/log` is
    unavailable.
- **LoggerFactory** (`factory.dfy`). `setup` chooses the root handlers,
  resolves levels and applies per-module levels. It also covers lazy setup
  in `get_logger`, the dedicated JSON and syslog loggers, and the cached
  global logger. The class holds the `_initialized` flag and the cached
  global logger. It also holds the part of `logging` that `setup` drives:
  - the logger table;
  - the class new loggers get;
  - the level tables.
- **Reference-page generator** (`refpages.dfy`), from
  `scripts/gen_ref_pages.py`:
  - class and public function extraction by the two regular expressions;
  - the skip rule for private files;
  - module paths and page titles;
  - the navigation tree built from the page paths;
  - its sorted, indented YAML rendering.

Support modules:

- `strings.dfy`: case mapping, `int()` parsing and `str.capitalize`.
- `sorting.dfy`: `sorted` as a stable insertion sort over a strict total
  order, and lexicographic order on strings and path parts.
- `wrappers.dfy`: `Option` and `Result`.

Python exceptions are modelled as `None` or `Failure` results.

The documentation describes caller attribution differently from the code:

- **Documented:** when attribution cannot be resolved, the message is left
  unmodified.
- **Code:** `_get_caller_info` catches the `ValueError` for a frame index
  past the end of the stack and returns `("unknown", "unknown")`. Only a depth of 1 or more can reach
  past the end, because depth 0 is the call site itself, so the message
  then gets a `[from unknown.unknown()]` tag.

The model follows the code; `TraceLogger.AttributionPastEnd` states the
outcome.

## Model

| member | source | states |
|---|---|---|
| Levels.Registered | src/arlogi/levels.py:7-20 | TRACE is always registered afterwards. An existing `TRACE` attribute leaves everything unchanged. Otherwise name and number are linked both ways and `trace` is installed. |
| Levels.RegisterIdempotent | src/arlogi/levels.py:9-10 | Registering twice equals registering once. |
| Levels.RegisterChangesOnlyTrace | src/arlogi/levels.py:12-13 | No other attribute, level number or level name changes. The attributes gain exactly `TRACE`. |
| Levels.RegisterFromStandard | src/arlogi/levels.py:4-13 | From the standard tables, `TRACE` maps to 5 and 5 maps to `TRACE`, and `trace` is installed. |
| Levels.LevelTable.RegisterTraceLevel | src/arlogi/levels.py:7-20 | The in-place update leaves exactly the `Registered` state. |
| Levels.PatchedTrace | src/arlogi/levels.py:15-20 | `_log` is reached iff the logger is enabled for level 5, with level 5 and the arguments unchanged. `TraceLogger.Dispatch` shows that `TraceLogger.trace` makes exactly this call on the processed message and keywords. |
| TraceLogger.CallerInfo | src/arlogi/factory.py:14-29 | Frame `depth + 3` gives its module `__name__` (else "unknown") and its code name. An index past the stack end gives ("unknown", "unknown"). |
| TraceLogger.CallerInfoAsWritten | src/arlogi/factory.py:24-29 | Returns a result iff `depth + 3` fits a C int, and then it agrees with `CallerInfo`. Outside that range `OverflowError` escapes. |
| TraceLogger.Attribution | src/arlogi/factory.py:41-54 | Depth below 1 gives `F()` for the frame at that depth. Depth 1 or more gives `from .F()` when that frame's module matches the call site's, and `from M.F()` otherwise. |
| TraceLogger.AttributionAtCallSite | src/arlogi/factory.py:41-54 | Depth 0 names the function that made the logging call. |
| TraceLogger.AttributionPastEnd | src/arlogi/factory.py:28-52 | A depth past the stack end yields `from unknown.unknown()`, not an unchanged message. |
| TraceLogger.ToInt | src/arlogi/factory.py:39 | `int()` of a marker: integers pass, booleans give 1 or 0, and finite floats round toward zero. Infinities, NaN, `None`, containers and other objects are rejected. A string gives `Strings.ParseInt`'s result: ASCII digits only, with no digit-count limit. |
| TraceLogger.FromValue | src/arlogi/factory.py:34 | Without any marker key there is no marker. Otherwise the value is one of the given markers: "from" wins over "from_caller", which wins over "from_". |
| TraceLogger.AttributedMessage | src/arlogi/factory.py:34-66 | The message is unchanged without a marker or when `int()` rejects it. Otherwise it is the text (`str(msg)` for non-strings), a newline and the escaped `[tag]`. |
| TraceLogger.AttributedMessageAsWritten | src/arlogi/factory.py:36-66 | The code raises iff the marker is an infinite float or an integer whose frame index leaves the C int range. Otherwise it returns the corrected `AttributedMessage`. |
| TraceLogger.FloatMarker | src/arlogi/factory.py:39 | A finite float marker attributes exactly as its integer part does. |
| TraceLogger.InfiniteMarkerRaises | src/arlogi/factory.py:39-65 | `from_=float("inf")` or `-inf` makes the code raise. The corrected model leaves the message unchanged, as for any marker `int()` rejects. |
| TraceLogger.OverflowingMarkerRaises | src/arlogi/factory.py:24-29 | A marker of 2**31-3 makes the code raise. The corrected model resolves it to ("unknown", "unknown"). |
| TraceLogger.RelocatedKwargs | src/arlogi/factory.py:68-86 | Only keywords that `_log` accepts remain, and `stacklevel` is always set. |
| TraceLogger.RelocatedShape | src/arlogi/factory.py:68-85 | Only `_log` keywords remain, and the markers are gone. `stacklevel` defaults to 2, while `exc_info` and `stack_info` pass through. Every custom keyword lands in `extra` over the given one, wrapping a non-dict as `_original_extra`. Without custom keywords, `extra` is untouched. |
| TraceLogger.MoveCustom | src/arlogi/factory.py:73-76 | The loop splits `kwargs` exactly into the standard keys and the custom keys, values kept. |
| TraceLogger.ProcessParams | src/arlogi/factory.py:31-86 | Returns the attributed message and the relocated keywords. It uses the corrected `AttributedMessage`: on the two inputs under "## Findings" the code raises instead, as `TraceLogger.AttributedMessageAsWritten` states. |
| TraceLogger.RelocateIdempotent | src/arlogi/factory.py:68-86 | Relocated keywords hold no marker and nothing custom. Relocating again changes nothing. |
| TraceLogger.Dispatch | src/arlogi/factory.py:88-122 | `_log` is reached iff the logger is enabled for the method's level, with the processed message and keywords. `exception` adds `exc_info=True` and processes twice. `trace` makes exactly the call `Levels.PatchedTrace` makes. Like `ProcessParams` it uses the corrected message; on the inputs under "## Findings" the code raises, as `TraceLogger.AttributedMessageAsWritten` states. |
| Handlers.NewColoredConsoleHandler | src/arlogi/handlers.py:15-53 | Defaults are overlaid by user styles (user wins, keys are the union). Console, rich tracebacks and markup are defaulted unless given. |
| Handlers.StyleFor | src/arlogi/handlers.py:63 | The lower-cased level name's style, or "default" when it is absent. |
| Handlers.LevelText | src/arlogi/handlers.py:55-65 | Raises iff the level name is empty. Otherwise returns the first character and a space, in the level's style. |
| Handlers.RenderMessage | src/arlogi/handlers.py:67-76 | The rendered text is kept, restyled with the level's style. |
| Handlers.IndicatorMatchesMessage | src/arlogi/handlers.py:55-76 | Indicator and message always share one style. |
| Handlers.DefaultStyleLookup | src/arlogi/handlers.py:24-32 | The six listed styles apply to the standard names and TRACE. Any other name gets "default". |
| Handlers.UpperCaseKeyUnused | src/arlogi/handlers.py:33-34 | A user style key containing an upper-case letter never affects a lookup. |
| Handlers.Format | src/arlogi/handlers.py:82-112 | The document is the JSON encoding of the assembled `log_data`. |
| Handlers.LogDataKeys | src/arlogi/handlers.py:84-110 | The seven base keys are always present. "exception" is present iff `exc_info` is truthy or copied. Every other key is exactly a copied attribute. |
| Handlers.LogDataValues | src/arlogi/handlers.py:84-110 | Copied attributes win. "message" and "module" are never overwritten. The exception appears when truthy and not shadowed, and the level when not shadowed. |
| Handlers.NoPrivateFields | src/arlogi/handlers.py:101-110 | No standard or underscore-prefixed attribute reaches the output. |
| Handlers.FormatDecodes | src/arlogi/handlers.py:112 | With serialisable attributes, the document decodes back to `log_data`. |
| Handlers.NewSyslogHandler | src/arlogi/handlers.py:140-160 | A working address gives the formatted handler. A failing `/dev/log` falls back to localhost:514 without the formatter. Raises iff another address fails. |
| Handlers.SyslogFormatterIffPrimary | src/arlogi/handlers.py:146-158 | The handler carries the syslog formatter iff the first attempt succeeded. |
| Handlers.DevLogNeverRaises | src/arlogi/handlers.py:149-158 | The default address always yields a handler. |
| Values.JsonRoundTrip | src/arlogi/handlers.py:112 | Natively serialisable values decode back unchanged. |
| Values.ToJson | src/arlogi/handlers.py:112 | Each value becomes the JSON value of its kind: `None` null, floats numbers, lists arrays of the same length, dicts objects with the same keys. Strings and other objects become strings. |
| Values.ObjectsAsStrings | src/arlogi/handlers.py:112 | Other objects encode as their `str()`, never as an error, and read back as that string. A float, finite or not, stays a number. |
| Strings.ParseInt | src/arlogi/factory.py:39 | A blank string is rejected. An accepted string is, after stripping the whitespace `int()` skips (not U+001C to U+001F), an ASCII digit string (single underscores between digits allowed) with at most one sign, and a negative result needs a `-`. |
| Strings.SeparatorNotIntSpace | src/arlogi/factory.py:39 | U+001C is `str.isspace` whitespace but not `int()` whitespace: `int("\x1c1")` is rejected while `int(" 1\n")` is 1. |
| Strings.ParseIntToString | src/arlogi/factory.py:39 | `int(str(i)) == i` for every integer. |
| Factory.Canonical | src/arlogi/factory.py:214 | "" and "root" resolve to the root logger, and nothing else does. |
| Factory.Ensured | src/arlogi/factory.py:214 | `getLogger` adds exactly the requested logger and keeps the others. |
| Factory.ResolveLevel | src/arlogi/factory.py:150-151 | A number passes through. A name is upper-cased and looked up among the module's attributes, defaulting to INFO. |
| Factory.CheckLevel | src/arlogi/factory.py:215-216 | `setLevel` accepts an integer or a boolean as is, and a string iff it is a registered level name as written. An unknown name raises `ValueError`, and any other value raises `TypeError`. |
| Factory.SetupLevel | src/arlogi/factory.py:150-155 | A number passes through, and an unknown name gives INFO. A rejected level is never a syslog error. |
| Factory.SetupLevelFailures | src/arlogi/factory.py:150-155 | After registration a level name fails iff it upper-cases to `BASIC_FORMAT` or `_STYLES`. The first raises `ValueError` naming the format string, the second `TypeError`. |
| Factory.ResolveIgnoresCase | src/arlogi/factory.py:150-151 | Level names resolve without regard to case. |
| Factory.ResolveExamples | src/arlogi/factory.py:146-151 | After registration, "trace" resolves to 5, "Warn" to WARNING and unknown names to INFO. `setLevel` rejects "debug". |
| Factory.RootHandlersShape | src/arlogi/factory.py:158-181 | A JSON file handler comes first iff a file is given, and a console handler iff not `json_file_only`. A JSON stream handler appears iff file-only without a file, and a syslog handler comes last iff asked for. There are one to three handlers, never two terminal ones. |
| Factory.ApplyModuleLevel | src/arlogi/factory.py:187-194 | One item sets its logger's resolved level and turns propagation on, keeping its handlers and class. A new logger is created as a `TraceLogger` without handlers. Other loggers are unchanged. |
| Factory.ApplyModuleLevels | src/arlogi/factory.py:186-194 | No logger disappears. |
| Factory.FirstFailure | src/arlogi/factory.py:186-194 | The index of the first item whose level is rejected, or the item count. Every earlier item is accepted. |
| Factory.ModuleLevelsOutcome | src/arlogi/factory.py:186-194 | No logger disappears, and a failure is never a syslog error. |
| Factory.ModuleLevelsAt | src/arlogi/factory.py:186-194 | A named logger gets the last item's level and propagates, keeping its handlers and class. Every other logger is unchanged. |
| Factory.ModuleLevelsFailure | src/arlogi/factory.py:186-194 | The loop fails iff some item's level is rejected. Without a failure it applies every item. At the first rejected item, the earlier items are applied and that item's logger is already created, and the error is that level's. |
| Factory.ModuleLevelsLeaveOthers | src/arlogi/factory.py:186-194 | A logger that no item names is unchanged. |
| Factory.ModuleLevelsIdempotent | src/arlogi/factory.py:186-194 | Applying the same items twice equals applying them once. |
| Factory.SetupSpec | src/arlogi/factory.py:149-194 | No logger disappears during setup. |
| Factory.SetupRoot | src/arlogi/factory.py:149-194 | A rejected root level raises before anything changes. Setup succeeds iff the root level is accepted, syslog (outside test mode) can be set up, and every module level is accepted. It raises a syslog error iff a non-default address cannot be set up. Otherwise the root keeps its class and gets, outside test mode, the planned handlers, or those added before the syslog handler raised; in test mode it keeps its handlers. Its level is the resolved one, unless a module item applied before any failure names the root ("" or "root"); then the last such item's level wins and the root propagates. |
| Factory.SetupLeavesOthers | src/arlogi/factory.py:153-194 | Loggers other than the root and the named modules are unchanged. |
| Factory.SetupIdempotent | src/arlogi/factory.py:141-196 | A successful setup repeated with the same arguments leaves the same logger table. |
| Factory.ReplaceRootHandlers | src/arlogi/factory.py:158-181 | The old handlers are removed, then the planned ones added in order. A failing syslog handler keeps the ones added before it. |
| Factory.SetModuleLevels | src/arlogi/factory.py:186-194 | The loop equals applying the items in order. |
| Factory.ConfigureLoggers | src/arlogi/factory.py:149-194 | The body after registration equals `SetupSpec`. |
| Factory.DefaultSetupSucceeds | src/arlogi/factory.py:210-212 | The setup `get_logger` triggers, with a numeric level and default arguments, never raises and sets that level on the root. |
| Factory.LazySetup | src/arlogi/factory.py:210-212 | The first use sets up with DEBUG in test mode and INFO otherwise, and keeps every logger. |
| Factory.LoggerFactory.constructor | src/arlogi/factory.py:125-127 | Not initialized, no global logger, only the root logger, standard level tables. |
| Factory.LoggerFactory.Setup | src/arlogi/factory.py:130-196 | TRACE is registered and `TraceLogger` becomes the logger class. The loggers become `SetupSpec`'s. The call raises exactly `SetupSpec`'s error: a rejected root or module level, or an unreachable syslog address. `_initialized` is set on success. |
| Factory.LoggerFactory.GetLogger | src/arlogi/factory.py:207-218 | Sets up on first use (DEBUG in test mode, INFO otherwise). Creates the logger, then sets the given level or raises for an unknown name. |
| Factory.LoggerFactory.GetJsonLogger | src/arlogi/factory.py:220-230 | `arlogi.json.<name>` does not propagate, has level DEBUG and exactly one JSON handler, to the file when a non-empty name is given. |
| Factory.LoggerFactory.GetSyslogLogger | src/arlogi/factory.py:232-241 | `arlogi.syslog.<name>` does not propagate and has level DEBUG with exactly one syslog handler. Raises iff the handler raises, leaving the logger non-propagating. |
| Factory.LoggerFactory.GetGlobalLogger | src/arlogi/factory.py:243-248 | The first call runs `get_logger("app")`: lazy setup when not initialized, then the "app" logger is created and cached. Later calls return the cache and change nothing. |
| Sorting.StrLtStrictTotal | scripts/gen_ref_pages.py:73 | String comparison is a strict total order. |
| Sorting.PartsLtStrictTotal | scripts/gen_ref_pages.py:113 | Comparison of path-part lists is a strict total order. |
| Sorting.Sort | scripts/gen_ref_pages.py:113 | `sorted` returns a permutation. |
| Sorting.SortSorted | scripts/gen_ref_pages.py:113 | `sorted` returns an ordered sequence. |
| RefPages.WordRun | scripts/gen_ref_pages.py:18-19 | `\w+` takes the maximal run of word characters. |
| RefPages.MatchBody | scripts/gen_ref_pages.py:18-19 | A match captures a non-empty word run followed by a delimiter. |
| RefPages.MatchAt | scripts/gen_ref_pages.py:18-19 | A match starts at the text start or at a newline and ends within the text. Its capture is a non-empty word. |
| RefPages.NoMatchInside | scripts/gen_ref_pages.py:18-21 | No match starts inside another match. |
| RefPages.FindAll | scripts/gen_ref_pages.py:21-22 | `re.findall` returns at most one name per scanned character, and every name is a word. |
| RefPages.FindAllIsScan | scripts/gen_ref_pages.py:21-22 | `re.findall` equals the names of the matches at every position, in order. |
| RefPages.PublicNames | scripts/gen_ref_pages.py:22 | The filter never lengthens the list. |
| RefPages.PublicNamesMembers | scripts/gen_ref_pages.py:22 | A name is kept iff it does not start with `_`. Nothing is dropped when no name is private. |
| RefPages.ExtractClassesAndFunctions | scripts/gen_ref_pages.py:12-24 | Class and function names are words, and no function name starts with `_`. |
| RefPages.ExtractionByLine | scripts/gen_ref_pages.py:12-24 | Classes are every line-start match. Functions are the public line-start matches, none with `_`. |
| RefPages.Title | scripts/gen_ref_pages.py:30 | The title is the last dotted segment with `_` replaced by a space, capitalized. |
| RefPages.TitleOfQualified | scripts/gen_ref_pages.py:30 | The title depends only on the last segment. |
| RefPages.MarkdownText | scripts/gen_ref_pages.py:27-43 | Read back line by line, the page is `# <title>`, a blank line, the `::: <module>` directive, its two option lines, and a final newline. |
| RefPages.Skipped | scripts/gen_ref_pages.py:94 | A file is skipped iff some part of its path starts with `_` and is not `__init__.py`. |
| RefPages.SkipExamples | scripts/gen_ref_pages.py:94 | `__init__.py` and public files are kept. `_version.py`, `__main__.py` and files under `_vendor` are skipped. |
| RefPages.SuffixStart | scripts/gen_ref_pages.py:104 | The suffix is the last dot that is neither leading nor trailing. |
| RefPages.Stem | scripts/gen_ref_pages.py:104 | The stem is never longer than the name. |
| RefPages.ModulePath | scripts/gen_ref_pages.py:103-107 | A top-level `__init__.py` gives ".". When no directory contains a dot, splitting the path at dots gives back the directories of a package, or the directories and the file stem of a module. |
| RefPages.ModuleTitle | scripts/gen_ref_pages.py:104 | A module's title is its file stem's title. |
| RefPages.PackageTitle | scripts/gen_ref_pages.py:106-107 | A package `__init__` is titled after its directory. |
| RefPages.ModulePathExamples | scripts/gen_ref_pages.py:103-107 | `arlogi/factory.py` maps to `arlogi.factory`, `arlogi/__init__.py` to `arlogi`, and a top-level `__init__.py` to `.`. |
| RefPages.PageFor | scripts/gen_ref_pages.py:92-110 | A file gets a page iff it is not skipped and has a class or public function. The page lives at `reference/<dirs>/<stem>.md`, with the module's markdown. |
| RefPages.PagesFromFiles | scripts/gen_ref_pages.py:92-110 | There are at most as many pages as files, and each page comes from one file. |
| RefPages.GenerateReference | scripts/gen_ref_pages.py:92-110 | The loop collects exactly the pages of the files, in order. |
| RefPages.Get | scripts/gen_ref_pages.py:64 | A lookup finds a value iff the key is present, and that entry exists. |
| RefPages.Put | scripts/gen_ref_pages.py:64-69 | Keys stay unique and the key maps to the new value. Other keys are unchanged, and no key appears from nowhere. |
| RefPages.PutWellKeyed | scripts/gen_ref_pages.py:61-69 | Storing a well-keyed node keeps every level's keys unique. |
| RefPages.ChildFor | scripts/gen_ref_pages.py:64-66 | The child is the existing entry, or a new empty dict. |
| RefPages.InsertAt | scripts/gen_ref_pages.py:61-69 | A successful insertion yields a well-keyed dict. |
| RefPages.InsertFound | scripts/gen_ref_pages.py:61-69 | The leaf is found under its directory keys. |
| RefPages.FreshLevelAccepts | scripts/gen_ref_pages.py:61-69 | Inserting into an empty dict never fails. |
| RefPages.InsertFailsIffBlocked | scripts/gen_ref_pages.py:61-69 | Insertion raises iff some directory prefix is already a leaf. |
| RefPages.InsertKeepsOthers | scripts/gen_ref_pages.py:61-69 | Every path that diverges from the inserted one looks up as before. |
| RefPages.DirKeys | scripts/gen_ref_pages.py:63 | Each directory part becomes its capitalized, spaced key. |
| RefPages.AddItem | scripts/gen_ref_pages.py:57-69 | An empty item raises. Otherwise the result is a well-keyed dict. |
| RefPages.NavTree | scripts/gen_ref_pages.py:55-69 | The fold over the items yields a well-keyed dict. |
| RefPages.AddItemFound | scripts/gen_ref_pages.py:58-69 | An added item is found at its key path with its path string. |
| RefPages.AddItemKeepsOthers | scripts/gen_ref_pages.py:58-69 | Adding an item leaves diverging paths as they were. |
| RefPages.LastItemFound | scripts/gen_ref_pages.py:57-69 | The last item is in the finished tree. |
| RefPages.ItemSurvives | scripts/gen_ref_pages.py:57-69 | An item whose path diverges from every later one is in the finished tree. |
| RefPages.BuildNavTree | scripts/gen_ref_pages.py:55-69 | The loop builds `NavTree`. |
| RefPages.Indent | scripts/gen_ref_pages.py:75 | Indentation is two spaces per level. |
| RefPages.SortEntries | scripts/gen_ref_pages.py:73 | The sorted items are a permutation. |
| RefPages.SortedEntries | scripts/gen_ref_pages.py:73 | The items are ordered by key and are a permutation. |
| RefPages.FormatNav | scripts/gen_ref_pages.py:71-79 | The loop with its recursion yields the specified rendering. |
| RefPages.FormatEntry | scripts/gen_ref_pages.py:74-78 | A dict renders as `- key:` followed by its block indented once more, and a leaf as `- key: path`. |
| RefPages.LinesPerEntry | scripts/gen_ref_pages.py:71-79 | There is one line per node of the tree. |
| RefPages.LinesIndented | scripts/gen_ref_pages.py:71-79 | Every line starts with the current indentation. |
| RefPages.NavMenu | scripts/gen_ref_pages.py:51-82 | The menu exists iff the tree of the sorted items builds. It has one line per tree node, and no items give an empty menu. |
| RefPages.CreateNavMenu | scripts/gen_ref_pages.py:51-82 | The menu is the rendering of the tree of the items, or nothing when building it raises. |
| RefPages.NavItems | scripts/gen_ref_pages.py:110 | The items are the pages' paths, in order. |
| RefPages.PageItemShape | scripts/gen_ref_pages.py:99-110 | A page path has at least two parts, starts with `reference` and ends in `.md`. |
| RefPages.NavItemsShape | scripts/gen_ref_pages.py:92-110 | Every collected item has that shape. |
| RefPages.GenerateDocs | scripts/gen_ref_pages.py:85-113 | `main` yields the pages of the files and the menu of their sorted paths. |

## Left out

- I/O is not modelled: reading source files, writing and creating page files, printing the menu and counts, and `sys.path`. Files are given as (path parts, content) pairs; the menu is returned as lines.
- rglob order is not modelled: the order of `rglob` is the order of the given file list.
- Path ordering: `sorted(nav_items)` on `Path` objects is taken as the lexicographic order of the part lists, as on POSIX.
- Unicode word characters and case mapping: `\w`, case mapping and `str.capitalize` cover ASCII letters and digits only. Whitespace for `\s` is the full set `str.isspace` accepts; `int()` skips that set minus U+001C to U+001F.
- The `current` variable in `create_nav_menu_yaml`, which aliases a nested dict, is not modelled as an alias: the dictionary walk is a recursive rebuild on values. The in-place `extra.update` in `_process_params` is likewise a map update on values.
- Rich rendering is left out: markup escaping (`rich.markup.escape`) and `str()` of arbitrary objects are parameters. `RichHandler.render_message` is given as the rendered text.
- The timestamp and the exception formatter of the JSON formatter are parameters. The JSON text encoding and dict key order are not modelled: documents are JSON values with maps.
- JSON file handler: `JSONFileHandler` directory creation and file opening are assumed to succeed.
- Syslog sockets: whether a syslog socket can be set up is the `connects` oracle.
- `is_test_mode` is not modelled: its reads of `sys.modules` and the environment become the `testMode` parameter.
- Level checks: `isEnabledFor` is the `enabled` oracle. The `logging` hierarchy, handler closing and record emission are not modelled.
- Call stack: the stack that `sys._getframe` walks is an input sequence of frames.
- Strings.ParseInt: accepts ASCII digits only, while `int()` of a `str` also accepts every Unicode decimal digit (`int("٣") == 3`). It also has no length limit, while Python 3.11 and later raise `ValueError` above 4300 digits by default; that limit depends on the version and on `sys.set_int_max_str_digits`. Such markers are rejected by the model where Python attributes them, and resolved by the model (as written, raising) where Python leaves the message unchanged.
- TraceLogger.ToInt: inherits both `Strings.ParseInt` gaps for string markers, so `AttributedMessage` and `AttributedMessageAsWritten` follow the model's parsing on such strings.
- Floating point: a finite float is an exact real, so double rounding is not modelled. JSON encodes floats as numbers; their textual form is not modelled.
- `int()` on other objects: objects that define `__int__` or `__index__` are not modelled; every other object is rejected.
- Non-string dict keys: `extra` and dict values have string keys only. `json.dumps` converting `int`, `float`, `bool` and `None` keys to strings is not modelled.
- Upper-case attributes: the attributes `getattr(logging, name.upper())` can reach are taken to be those of CPython's `logging` module: the level names, `BASIC_FORMAT` and `_STYLES`.
- Syslog formatting: the syslog format string is not modelled. A handler records only which formatter it carries.
- Default arguments: the models take every argument explicitly. The defaults are not modelled for `get_json_logger` (`name="json"`), `get_syslog_logger` (`name="syslog"`, `address="/dev/log"`) and `ColoredConsoleHandler` (`show_time=False`, `show_level=True`, `show_path=True`). The `setup` defaults are `Factory.DefaultConfig`.
- Factory.SetupIdempotent: stated only for a setup that succeeds. After a failure the table depends on where setup stopped.
- `src/arlogi/types.py` (the `LoggerProtocol` typing interface) is not part of this model.

## Findings

| source | as written | input that shows it | evidently intended | confidence | as-written member | corrected member |
|---|---|---|---|---|---|---|
| src/arlogi/factory.py:24-29 | `sys._getframe(depth + 3)` raises `OverflowError` when `depth + 3` does not fit a C int. Neither `except` clause (lines 28 and 65) catches it, so the logging call raises. | `logger.info("x", from_caller=2**31 - 3)` | An unresolvable depth gives ("unknown", "unknown"), as for any index past the end of the stack. | not executed | TraceLogger.CallerInfoAsWritten (shown by TraceLogger.OverflowingMarkerRaises) | TraceLogger.CallerInfo |
| src/arlogi/factory.py:39 | `int(from_val)` of an infinite float raises `OverflowError`. The `except` clause at line 65 catches only `ValueError`, `TypeError` and `ImportError`, so the logging call raises. | `logger.info("x", from_=float("inf"))` | A marker `int()` cannot convert leaves the message unchanged, as a NaN marker does. | not executed | TraceLogger.AttributedMessageAsWritten (shown by TraceLogger.InfiniteMarkerRaises) | TraceLogger.AttributedMessage |

=== FILE: factory.dfy ===
/**
 * `LoggerFactory`: one-time (or repeated) configuration of the root logger,
 * lazy setup on first use, and the dedicated JSON and syslog loggers.
 *
 * The part of the `logging` module the factory drives is modelled as the
 * factory's own state: a table from logger name to the three attributes the
 * code sets (level, propagate, handler list) plus the logger's class, the
 * class `getLogger` gives new loggers, and the level tables.
 */
module Factory {
  import opened Wrappers
  import opened Strings
  import opened Handlers
  import opened Values
  import Levels

  /** The attributes of a logger the factory reads or sets. */
  datatype LoggerState = LoggerState(level: int, propagate: bool, handlers: seq<Handler>, isTraceLogger: bool)

  /** A level as the caller gives it: a number or a name. */
  datatype LevelArg = IntLevel(n: int) | NameLevel(name: string)

  /** Why a factory call raises. */
  datatype FactoryError =
    | SyslogUnavailable(address: Address)
    | UnknownLevel(name: string)  // `ValueError` from `setLevel`
    | NotALevel                   // `TypeError` from `setLevel`

  /** The arguments of `setup`; `moduleLevels` lists the dictionary's items in order. */
  datatype Config = Config(
    level: LevelArg,
    moduleLevels: seq<(string, LevelArg)>,
    jsonFileName: Option<string>,
    jsonFileOnly: bool,
    useSyslog: bool,
    syslogAddress: Address,
    showTime: bool, showLevel: bool, showPath: bool)

  /** `setup(level=level)` with every other argument at its default. */
  function DefaultConfig(level: int): Config {
    Config(IntLevel(level), [], None, false, false, DevLog, false, true, true)
  }

  const RootName := "root"
  const GlobalLoggerName := "app"

  /** The root logger as `import logging` leaves it. */
  const RootInitial := LoggerState(Levels.Warning, true, [], false)

  /** A logger `getLogger` creates: no level, propagating, no handlers. */
  function NewLogger(traceClass: bool): LoggerState {
    LoggerState(Levels.NotSet, true, [], traceClass)
  }

  /** The table key `getLogger(name)` resolves to: "" and "root" both name the root logger. */
  function Canonical(name: string): (r: string)
    ensures r != ""
    ensures r == RootName <==> name == "" || name == RootName
  {
    if name == "" || name == RootName then RootName else name
  }

  /** The table once `getLogger(name)` has run: the logger exists. */
  function Ensured(loggers: map<string, LoggerState>, name: string, traceClass: bool): (r: map<string, LoggerState>)
    ensures Canonical(name) in r && r.Keys == loggers.Keys + {Canonical(name)}
    ensures forall k | k in loggers :: r[k] == loggers[k]
  {
    var key := Canonical(name);
    if key in loggers then loggers else loggers[key := NewLogger(traceClass)]
  }

  /** A `json_file_name` counts only when it is a non-empty string. */
  predicate FileGiven(c: Config) {
    c.jsonFileName.Some? && c.jsonFileName.value != ""
  }

  // ---- levels ----

  /**
   * A level as `setup` resolves it: a number is kept; a name is upper-cased
   * and looked up among the module's attributes, with INFO when there is no
   * such attribute. The attribute found need not be a level.
   */
  function ResolveLevel(ls: Levels.LevelState, arg: LevelArg): (r: Value)
    ensures arg.IntLevel? ==> r == VInt(arg.n)
    ensures arg.NameLevel? && Upper(arg.name) in ls.attributes ==> r == ls.attributes[Upper(arg.name)]
    ensures arg.NameLevel? && Upper(arg.name) !in ls.attributes ==> r == VInt(Levels.Info)
  {
    match arg
    case IntLevel(n) => VInt(n)
    case NameLevel(s) => if Upper(s) in ls.attributes then ls.attributes[Upper(s)] else VInt(Levels.Info)
  }

  /**
   * A level as `Logger.setLevel` checks it: an integer (a bool counts as
   * one) is taken as it is, a string must be a registered level name exactly
   * as written (otherwise `ValueError`), and anything else raises `TypeError`.
   */
  function CheckLevel(ls: Levels.LevelState, v: Value): (r: Result<int, FactoryError>)
    ensures r.Success? <==> v.VInt? || v.VBool? || (v.VStr? && v.s in ls.nameToLevel)
    ensures v.VInt? ==> r == Success(v.i)
    ensures v.VStr? && v.s in ls.nameToLevel ==> r == Success(ls.nameToLevel[v.s])
    ensures v.VStr? && v.s !in ls.nameToLevel ==> r == Failure(UnknownLevel(v.s))
    ensures !(v.VInt? || v.VBool? || v.VStr?) ==> r == Failure(NotALevel)
  {
    match v
    case VInt(n) => Success(n)
    case VBool(b) => Success(if b then 1 else 0)
    case VStr(s) => if s in ls.nameToLevel then Success(ls.nameToLevel[s]) else Failure(UnknownLevel(s))
    case _ => Failure(NotALevel)
  }

  /** A level argument as the Python value it is. */
  function ArgValue(arg: LevelArg): Value {
    match arg
    case IntLevel(n) => VInt(n)
    case NameLevel(s) => VStr(s)
  }

  /** A level `setup` resolves and then hands to `setLevel`. */
  function SetupLevel(ls: Levels.LevelState, arg: LevelArg): (r: Result<int, FactoryError>)
    ensures arg.IntLevel? ==> r == Success(arg.n)
    ensures arg.NameLevel? && Upper(arg.name) !in ls.attributes ==> r == Success(Levels.Info)
    ensures r.Failure? ==> !r.error.SyslogUnavailable?
  {
    CheckLevel(ls, ResolveLevel(ls, arg))
  }

  lemma UpperLower(s: string)
    ensures Upper(Lower(s)) == Upper(s)
  {
  }

  /** `setup` resolves level names without regard to case. */
  lemma ResolveIgnoresCase(ls: Levels.LevelState, s: string)
    ensures ResolveLevel(ls, NameLevel(Lower(s))) == ResolveLevel(ls, NameLevel(s))
    ensures SetupLevel(ls, NameLevel(Lower(s))) == SetupLevel(ls, NameLevel(s))
  {
    UpperLower(s);
  }

  /**
   * After registration "trace" resolves to 5, a standard name to its level
   * and an unknown name to INFO; `setLevel` rejects the lower-case "debug"
   * that `setup` accepts.
   */
  lemma ResolveExamples()
    ensures SetupLevel(Levels.Registered(Levels.StandardState), NameLevel("trace")) == Success(Levels.TraceLevelNum)
    ensures SetupLevel(Levels.Registered(Levels.StandardState), NameLevel("Warn")) == Success(Levels.Warning)
    ensures SetupLevel(Levels.Registered(Levels.StandardState), NameLevel("verbose")) == Success(Levels.Info)
    ensures SetupLevel(Levels.Registered(Levels.StandardState), NameLevel("debug")) == Success(Levels.Debug)
    ensures CheckLevel(Levels.Registered(Levels.StandardState), ArgValue(NameLevel("debug"))).Failure?
  {
    assert Upper("trace") == "TRACE";
    assert Upper("Warn") == "WARN";
    assert Upper("debug") == "DEBUG";
    assert Upper("verbose") == "VERBOSE";
  }

  /**
   * With TRACE registered, `setup` accepts every name except the two
   * upper-case attributes of `logging` that are not levels: "basic_format"
   * (a format string, `ValueError`) and "_styles" (a dict, `TypeError`).
   */
  lemma SetupLevelFailures(s: string)
    ensures var ls := Levels.Registered(Levels.StandardState);
      && (SetupLevel(ls, NameLevel(s)).Failure? <==> Upper(s) == "BASIC_FORMAT" || Upper(s) == "_STYLES")
      && (Upper(s) == "BASIC_FORMAT" ==> SetupLevel(ls, NameLevel(s)) == Failure(UnknownLevel(Levels.BasicFormat)))
      && (Upper(s) == "_STYLES" ==> SetupLevel(ls, NameLevel(s)) == Failure(NotALevel))
  {
    var ls := Levels.Registered(Levels.StandardState);
    var u := Upper(s);
    if u in ls.attributes {
      assert u in {"CRITICAL", "FATAL", "ERROR", "WARNING", "WARN", "INFO", "DEBUG", "NOTSET", "BASIC_FORMAT", "_STYLES", "TRACE"};
    }
  }

  // ---- root handlers ----

  /** The console handler `setup` builds: default styles and console options. */
  function SetupConsole(c: Config): ConsoleConfig {
    ConsoleConfig(c.showTime, c.showLevel, c.showPath, DefaultStyles, ForcedStdout, true, true)
  }

  /** The file and terminal handlers, in the order `setup` adds them. */
  function FileAndTerminal(c: Config): seq<Handler> {
    (if FileGiven(c) then [JsonFileHandler(c.jsonFileName.value)] else [])
    + (if !c.jsonFileOnly then [ConsoleHandler(SetupConsole(c))]
       else if !FileGiven(c) then [JsonStreamHandler]
       else [])
  }

  /** The syslog handler, when asked for, or the address whose setup raised. */
  function SyslogPart(c: Config, connects: Address -> bool): Result<seq<Handler>, Address> {
    if !c.useSyslog then Success([])
    else match NewSyslogHandler(c.syslogAddress, connects)
      case Success(h) => Success([h])
      case Failure(a) => Failure(a)
  }

  predicate IsTerminal(h: Handler) { h.ConsoleHandler? || h.JsonStreamHandler? }

  /**
   * The decision table of `setup`: a JSON file handler first iff a file name
   * is given, a console handler iff not `json_file_only`, a JSON stream
   * handler iff `json_file_only` without a file, a syslog handler last iff
   * `use_syslog`; never two terminal handlers, never none at all.
   */
  lemma RootHandlersShape(c: Config, connects: Address -> bool)
    requires SyslogPart(c, connects).Success?
    ensures var hs := FileAndTerminal(c) + SyslogPart(c, connects).value;
      && 1 <= |hs| <= 3
      && (FileGiven(c) <==> hs[0].JsonFileHandler?)
      && (FileGiven(c) ==> hs[0] == JsonFileHandler(c.jsonFileName.value))
      && ((exists i | 0 <= i < |hs| :: hs[i].ConsoleHandler?) <==> !c.jsonFileOnly)
      && ((exists i | 0 <= i < |hs| :: hs[i].JsonStreamHandler?) <==> c.jsonFileOnly && !FileGiven(c))
      && (c.useSyslog <==> hs[|hs| - 1].SyslogHandler?)
      && (forall i, j | 0 <= i < j < |hs| :: !(IsTerminal(hs[i]) && IsTerminal(hs[j])))
  {
    var hs := FileAndTerminal(c) + SyslogPart(c, connects).value;
    var first := if FileGiven(c) then 1 else 0;
    if !c.jsonFileOnly {
      assert hs[first].ConsoleHandler?;
    } else if !FileGiven(c) {
      assert hs[0].JsonStreamHandler?;
    }
    if c.useSyslog {
      assert hs[|hs| - 1] == SyslogPart(c, connects).value[0];
    }
  }

  // ---- module levels ----

  /** The first `n` items of `module_levels` all carry a level `setup` accepts. */
  predicate LevelsAccepted(items: seq<(string, LevelArg)>, n: nat, ls: Levels.LevelState)
    requires n <= |items|
  {
    forall j | 0 <= j < n :: SetupLevel(ls, items[j].1).Success?
  }

  /** The index of the first item from `i` on whose level is rejected, or the length. */
  function FirstFailureFrom(items: seq<(string, LevelArg)>, ls: Levels.LevelState, i: nat): (k: nat)
    requires i <= |items|
    ensures i <= k <= |items|
    ensures forall j | i <= j < k :: SetupLevel(ls, items[j].1).Success?
    ensures k < |items| ==> SetupLevel(ls, items[k].1).Failure?
    decreases |items| - i
  {
    if i == |items| || SetupLevel(ls, items[i].1).Failure? then i
    else FirstFailureFrom(items, ls, i + 1)
  }

  function FirstFailure(items: seq<(string, LevelArg)>, ls: Levels.LevelState): (k: nat)
    ensures k <= |items| && LevelsAccepted(items, k, ls)
    ensures k < |items| ==> SetupLevel(ls, items[k].1).Failure?
  {
    FirstFailureFrom(items, ls, 0)
  }

  /** One accepted `module_levels` item: the logger exists, gets the level and propagates. */
  function ApplyModuleLevel(loggers: map<string, LoggerState>, name: string, level: int): (r: map<string, LoggerState>)
    ensures r.Keys == loggers.Keys + {Canonical(name)}
    ensures r[Canonical(name)].level == level && r[Canonical(name)].propagate
    ensures Canonical(name) in loggers ==>
      r[Canonical(name)].handlers == loggers[Canonical(name)].handlers &&
      r[Canonical(name)].isTraceLogger == loggers[Canonical(name)].isTraceLogger
    ensures Canonical(name) !in loggers ==> r[Canonical(name)].handlers == [] && r[Canonical(name)].isTraceLogger
    ensures forall k | k in loggers && k != Canonical(name) :: r[k] == loggers[k]
  {
    var key := Canonical(name);
    var current := if key in loggers then loggers[key] else NewLogger(true);
    loggers[key := current.(level := level, propagate := true)]
  }

  /** The first `n` items applied in order; new loggers are `TraceLogger`s by then. */
  function ApplyModuleLevels(loggers: map<string, LoggerState>, items: seq<(string, LevelArg)>, n: nat, ls: Levels.LevelState): (r: map<string, LoggerState>)
    requires n <= |items| && LevelsAccepted(items, n, ls)
    ensures loggers.Keys <= r.Keys
  {
    if n == 0 then loggers
    else ApplyModuleLevel(ApplyModuleLevels(loggers, items, n - 1, ls), items[n - 1].0, SetupLevel(ls, items[n - 1].1).value)
  }

  /**
   * The `module_levels` loop as a whole. Items are applied in order until one
   * carries a level `setLevel` rejects; that item's logger has been created,
   * and the error ends `setup`.
   */
  function ModuleLevelsOutcome(loggers: map<string, LoggerState>, items: seq<(string, LevelArg)>, ls: Levels.LevelState): (r: SetupOutcome)
    ensures loggers.Keys <= r.loggers.Keys
    ensures r.failed.Some? ==> !r.failed.value.SyslogUnavailable?
  {
    var k := FirstFailure(items, ls);
    var applied := ApplyModuleLevels(loggers, items, k, ls);
    if k == |items| then SetupOutcome(applied, None)
    else SetupOutcome(Ensured(applied, items[k].0, true), Some(SetupLevel(ls, items[k].1).error))
  }

  /** The canonical names the first `n` items touch. */
  function ItemKeys(items: seq<(string, LevelArg)>, n: nat): set<string>
    requires n <= |items|
  {
    set i | 0 <= i < n :: Canonical(items[i].0)
  }

  /** The index of the last of the first `n` items naming `key`. */
  function LastIndexFor(items: seq<(string, LevelArg)>, n: nat, key: string): (j: nat)
    requires n <= |items| && key in ItemKeys(items, n)
    ensures j < n && Canonical(items[j].0) == key
    ensures forall i | j < i < n :: Canonical(items[i].0) != key
  {
    if Canonical(items[n - 1].0) == key then n - 1
    else
      assert key in ItemKeys(items, n - 1) by {
        var i :| 0 <= i < n && Canonical(items[i].0) == key;
      }
      LastIndexFor(items, n - 1, key)
  }

  /**
   * After the first `n` items are applied, every named logger has the level
   * of the last item naming it and propagates, and keeps its handlers and
   * class; every other logger is unchanged.
   */
  lemma {:induction false} ModuleLevelsAt(loggers: map<string, LoggerState>, items: seq<(string, LevelArg)>, n: nat, ls: Levels.LevelState, key: string)
    requires n <= |items| && LevelsAccepted(items, n, ls)
    ensures key in ApplyModuleLevels(loggers, items, n, ls) <==> key in loggers || key in ItemKeys(items, n)
    ensures key !in ItemKeys(items, n) && key in loggers ==> ApplyModuleLevels(loggers, items, n, ls)[key] == loggers[key]
    ensures key in ItemKeys(items, n) ==>
      var before := if key in loggers then loggers[key] else NewLogger(true);
      ApplyModuleLevels(loggers, items, n, ls)[key]
        == before.(level := SetupLevel(ls, items[LastIndexFor(items, n, key)].1).value, propagate := true)
  {
    if n > 0 {
      ModuleLevelsAt(loggers, items, n - 1, ls, key);
      assert ItemKeys(items, n) == ItemKeys(items, n - 1) + {Canonical(items[n - 1].0)};
    }
  }

  /**
   * `module_levels` raises exactly when some item's level is rejected; then
   * the error is the first such item's, the items before it are applied and
   * its own logger exists. Otherwise every item is applied.
   */
  lemma ModuleLevelsFailure(loggers: map<string, LoggerState>, items: seq<(string, LevelArg)>, ls: Levels.LevelState)
    ensures var o := ModuleLevelsOutcome(loggers, items, ls);
      && (o.failed.None? <==> LevelsAccepted(items, |items|, ls))
      && (o.failed.None? ==> o.loggers == ApplyModuleLevels(loggers, items, |items|, ls))
      && (forall k | 0 <= k < |items| && LevelsAccepted(items, k, ls) && SetupLevel(ls, items[k].1).Failure? ::
            o == SetupOutcome(Ensured(ApplyModuleLevels(loggers, items, k, ls), items[k].0, true), Some(SetupLevel(ls, items[k].1).error)))
  {
    var f := FirstFailure(items, ls);
    forall k | 0 <= k < |items| && LevelsAccepted(items, k, ls) && SetupLevel(ls, items[k].1).Failure?
      ensures f == k
    {
    }
    if f < |items| {
      assert !LevelsAccepted(items, |items|, ls);
    }
  }

  /** `module_levels` leaves every logger it does not name as it was, even when it raises. */
  lemma ModuleLevelsLeaveOthers(loggers: map<string, LoggerState>, items: seq<(string, LevelArg)>, ls: Levels.LevelState, key: string)
    requires key in loggers && key !in ItemKeys(items, |items|)
    ensures key in ModuleLevelsOutcome(loggers, items, ls).loggers
    ensures ModuleLevelsOutcome(loggers, items, ls).loggers[key] == loggers[key]
  {
    var k := FirstFailure(items, ls);
    ModuleLevelsAt(loggers, items, k, ls, key);
  }

  /** Applying the same `module_levels` a second time leaves the same loggers and the same error. */
  lemma ModuleLevelsIdempotent(loggers: map<string, LoggerState>, items: seq<(string, LevelArg)>, ls: Levels.LevelState)
    ensures var once := ModuleLevelsOutcome(loggers, items, ls);
      ModuleLevelsOutcome(once.loggers, items, ls) == once
  {
    var once := ModuleLevelsOutcome(loggers, items, ls);
    var k := FirstFailure(items, ls);
    var applied := ApplyModuleLevels(loggers, items, k, ls);
    var again := ApplyModuleLevels(once.loggers, items, k, ls);
    forall key ensures (key in again <==> key in once.loggers) && (key in again ==> again[key] == once.loggers[key]) {
      ModuleLevelsAt(loggers, items, k, ls, key);
      ModuleLevelsAt(once.loggers, items, k, ls, key);
    }
    assert again == once.loggers;
  }

  // ---- setup ----

  /** The logger table after `setup`, and the error it raised, if any. */
  datatype SetupOutcome = SetupOutcome(loggers: map<string, LoggerState>, failed: Option<FactoryError>)

  /**
   * `setup` on a logger table, given the level tables after TRACE
   * registration. A rejected root level raises before anything changes.
   * Otherwise the root's level is set; outside test mode its handlers are
   * replaced one by one, and when the syslog handler raises the root keeps
   * the handlers added so far. Then the module levels are applied.
   */
  function SetupSpec(loggers: map<string, LoggerState>, ls: Levels.LevelState, c: Config, testMode: bool, connects: Address -> bool): (r: SetupOutcome)
    requires RootName in loggers
    ensures loggers.Keys <= r.loggers.Keys
  {
    match SetupLevel(ls, c.level)
    case Failure(e) => SetupOutcome(loggers, Some(e))
    case Success(level) =>
      var root := loggers[RootName].(level := level);
      if testMode then ModuleLevelsOutcome(loggers[RootName := root], c.moduleLevels, ls)
      else match SyslogPart(c, connects)
        case Failure(a) => SetupOutcome(loggers[RootName := root.(handlers := FileAndTerminal(c))], Some(SyslogUnavailable(a)))
        case Success(s) => ModuleLevelsOutcome(loggers[RootName := root.(handlers := FileAndTerminal(c) + s)], c.moduleLevels, ls)
  }

  /**
   * What `setup` leaves on the root logger, and when it raises. A rejected
   * root level leaves every logger as it was. Otherwise the root keeps its
   * class, has the planned handlers outside test mode and its previous
   * handlers in test mode. Its level is the resolved one, unless a
   * `module_levels` item applied before any failure names the root
   * ("" or "root"); then the last such item's level wins. The syslog error
   * arises only for an address other than "/dev/log" that cannot be set up;
   * a rejected module level raises after the root is configured.
   */
  lemma SetupRoot(loggers: map<string, LoggerState>, ls: Levels.LevelState, c: Config, testMode: bool, connects: Address -> bool)
    requires RootName in loggers
    ensures var o := SetupSpec(loggers, ls, c, testMode, connects);
      var items := c.moduleLevels;
      var k := FirstFailure(items, ls);
      var applied := testMode || SyslogPart(c, connects).Success?;
      && (SetupLevel(ls, c.level).Failure? ==> o == SetupOutcome(loggers, Some(SetupLevel(ls, c.level).error)))
      && (o.failed.None? <==>
            && SetupLevel(ls, c.level).Success?
            && applied
            && LevelsAccepted(items, |items|, ls))
      && (o.failed == Some(SyslogUnavailable(c.syslogAddress)) <==>
            && SetupLevel(ls, c.level).Success?
            && !testMode && c.useSyslog && !connects(c.syslogAddress) && c.syslogAddress != DevLog)
      && (SetupLevel(ls, c.level).Success? ==>
            && o.loggers[RootName].isTraceLogger == loggers[RootName].isTraceLogger
            && (testMode ==> o.loggers[RootName].handlers == loggers[RootName].handlers)
            && (!testMode && SyslogPart(c, connects).Success? ==>
                  o.loggers[RootName].handlers == FileAndTerminal(c) + SyslogPart(c, connects).value)
            && (!testMode && SyslogPart(c, connects).Failure? ==> o.loggers[RootName].handlers == FileAndTerminal(c))
            && (!applied || RootName !in ItemKeys(items, k) ==> o.loggers[RootName].level == SetupLevel(ls, c.level).value)
            && (applied && RootName in ItemKeys(items, k) ==>
                  o.loggers[RootName].level == SetupLevel(ls, items[LastIndexFor(items, k, RootName)].1).value
                  && o.loggers[RootName].propagate))
  {
    if SetupLevel(ls, c.level).Success? {
      var root := loggers[RootName].(level := SetupLevel(ls, c.level).value);
      if testMode || SyslogPart(c, connects).Success? {
        var start := if testMode then loggers[RootName := root]
          else loggers[RootName := root.(handlers := FileAndTerminal(c) + SyslogPart(c, connects).value)];
        var items := c.moduleLevels;
        var k := FirstFailure(items, ls);
        ModuleLevelsFailure(start, items, ls);
        ModuleLevelsAt(start, items, k, ls, RootName);
        if k < |items| {
          assert LevelsAccepted(items, k, ls) && SetupLevel(ls, items[k].1).Failure?;
        }
      }
    }
  }

  /** Loggers that are neither the root nor named in `module_levels` are left alone, even when `setup` raises. */
  lemma SetupLeavesOthers(loggers: map<string, LoggerState>, ls: Levels.LevelState, c: Config, testMode: bool, connects: Address -> bool, key: string)
    requires RootName in loggers
    requires key in loggers && key != RootName && key !in ItemKeys(c.moduleLevels, |c.moduleLevels|)
    ensures key in SetupSpec(loggers, ls, c, testMode, connects).loggers
    ensures SetupSpec(loggers, ls, c, testMode, connects).loggers[key] == loggers[key]
  {
    if SetupLevel(ls, c.level).Success? {
      var root := loggers[RootName].(level := SetupLevel(ls, c.level).value);
      if testMode {
        ModuleLevelsLeaveOthers(loggers[RootName := root], c.moduleLevels, ls, key);
      } else if SyslogPart(c, connects).Success? {
        ModuleLevelsLeaveOthers(loggers[RootName := root.(handlers := FileAndTerminal(c) + SyslogPart(c, connects).value)], c.moduleLevels, ls, key);
      }
    }
  }

  /** Running `setup` twice with the same arguments leaves what running it once leaves. */
  lemma SetupIdempotent(loggers: map<string, LoggerState>, ls: Levels.LevelState, c: Config, testMode: bool, connects: Address -> bool)
    requires RootName in loggers
    requires SetupSpec(loggers, ls, c, testMode, connects).failed.None?
    ensures var once := SetupSpec(loggers, ls, c, testMode, connects).loggers;
      SetupSpec(once, ls, c, testMode, connects).loggers == once
  {
    var items := c.moduleLevels;
    var n := |items|;
    var once := SetupSpec(loggers, ls, c, testMode, connects).loggers;
    var root := loggers[RootName].(level := SetupLevel(ls, c.level).value);
    var start := if testMode then loggers[RootName := root]
                 else loggers[RootName := root.(handlers := FileAndTerminal(c) + SyslogPart(c, connects).value)];
    ModuleLevelsFailure(start, items, ls);
    assert once == ApplyModuleLevels(start, items, n, ls);
    var root2 := once[RootName].(level := SetupLevel(ls, c.level).value);
    var start2 := if testMode then once[RootName := root2]
                  else once[RootName := root2.(handlers := FileAndTerminal(c) + SyslogPart(c, connects).value)];
    ModuleLevelsFailure(start2, items, ls);
    var twice := ApplyModuleLevels(start2, items, n, ls);
    forall key ensures (key in twice <==> key in once) && (key in once ==> twice[key] == once[key]) {
      ModuleLevelsAt(start, items, n, ls, key);
      ModuleLevelsAt(start2, items, n, ls, key);
      if key == RootName {
        ModuleLevelsAt(start, items, n, ls, RootName);
      }
    }
  }

  /**
   * The handler list `setup` leaves on the root outside test mode: the old
   * handlers removed one by one, then the planned ones added in order.
   * `failed` is the syslog address whose setup raised; the handlers added
   * before it stay.
   */
  method ReplaceRootHandlers(current: seq<Handler>, c: Config, connects: Address -> bool)
    returns (handlers: seq<Handler>, failed: Option<Address>)
    ensures failed.Some? <==> SyslogPart(c, connects).Failure?
    ensures failed.Some? ==> failed.value == SyslogPart(c, connects).error && handlers == FileAndTerminal(c)
    ensures failed.None? ==> handlers == FileAndTerminal(c) + SyslogPart(c, connects).value
  {
    handlers := current;
    while handlers != []
      decreases |handlers|
    {
      handlers := handlers[1..];
    }
    if FileGiven(c) {
      handlers := handlers + [JsonFileHandler(c.jsonFileName.value)];
    }
    if !c.jsonFileOnly {
      var console := NewColoredConsoleHandler(c.showTime, c.showLevel, c.showPath, None, None, None, None);
      handlers := handlers + [ConsoleHandler(console)];
    } else if !FileGiven(c) {
      handlers := handlers + [JsonStreamHandler];
    }
    assert handlers == FileAndTerminal(c);
    failed := None;
    if c.useSyslog {
      var syslog := NewSyslogHandler(c.syslogAddress, connects);
      if syslog.Failure? {
        failed := Some(syslog.error);
        return;
      }
      handlers := handlers + [syslog.value];
    }
  }

  /**
   * The loop of `setup` over `module_levels`: each item gets or creates its
   * logger (a `TraceLogger` when new), resolves and sets the level, and
   * turns propagation on; a rejected level ends the loop with its error.
   */
  method SetModuleLevels(loggers: map<string, LoggerState>, items: seq<(string, LevelArg)>, ls: Levels.LevelState)
    returns (outcome: SetupOutcome)
    ensures outcome == ModuleLevelsOutcome(loggers, items, ls)
  {
    var table := loggers;
    for i := 0 to |items|
      invariant LevelsAccepted(items, i, ls)
      invariant table == ApplyModuleLevels(loggers, items, i, ls)
    {
      var (name, arg) := items[i];
      table := Ensured(table, name, true);
      var level := CheckLevel(ls, ResolveLevel(ls, arg));
      if level.Failure? {
        ModuleLevelsFailure(loggers, items, ls);
        return SetupOutcome(table, Some(level.error));
      }
      var key := Canonical(name);
      ModuleLevelStep(loggers, items, i, ls);
      table := table[key := table[key].(level := level.value, propagate := true)];
    }
    ModuleLevelsFailure(loggers, items, ls);
    outcome := SetupOutcome(table, None);
  }

  /** One pass of the loop: creating the logger, then setting it, applies the item. */
  lemma ModuleLevelStep(loggers: map<string, LoggerState>, items: seq<(string, LevelArg)>, i: nat, ls: Levels.LevelState)
    requires i < |items| && LevelsAccepted(items, i, ls) && SetupLevel(ls, items[i].1).Success?
    ensures LevelsAccepted(items, i + 1, ls)
    ensures var e := Ensured(ApplyModuleLevels(loggers, items, i, ls), items[i].0, true);
      var key := Canonical(items[i].0);
      e[key := e[key].(level := SetupLevel(ls, items[i].1).value, propagate := true)] == ApplyModuleLevels(loggers, items, i + 1, ls)
  {
  }

  /**
   * The body of `setup` after TRACE registration, on the logger table: the
   * root's level, its handlers outside test mode, then the module levels.
   */
  method ConfigureLoggers(loggers: map<string, LoggerState>, ls: Levels.LevelState, c: Config, testMode: bool, connects: Address -> bool)
    returns (outcome: SetupOutcome)
    requires RootName in loggers
    ensures outcome == SetupSpec(loggers, ls, c, testMode, connects)
  {
    var level := CheckLevel(ls, ResolveLevel(ls, c.level));
    if level.Failure? {
      return SetupOutcome(loggers, Some(level.error));
    }
    var root := loggers[RootName].(level := level.value);
    var table := loggers[RootName := root];
    if !testMode {
      var handlers, failed := ReplaceRootHandlers(root.handlers, c, connects);
      table := loggers[RootName := root.(handlers := handlers)];
      if failed.Some? {
        return SetupOutcome(table, Some(SyslogUnavailable(failed.value)));
      }
    }
    outcome := SetModuleLevels(table, c.moduleLevels, ls);
  }

  /** `setup` with nothing but a numeric level never raises. */
  lemma DefaultSetupSucceeds(loggers: map<string, LoggerState>, ls: Levels.LevelState, level: int, testMode: bool, connects: Address -> bool)
    requires RootName in loggers
    ensures SetupSpec(loggers, ls, DefaultConfig(level), testMode, connects).failed.None?
    ensures SetupSpec(loggers, ls, DefaultConfig(level), testMode, connects).loggers[RootName].level == level
  {
    var c := DefaultConfig(level);
    var start := if testMode then loggers[RootName := loggers[RootName].(level := level)]
                 else loggers[RootName := loggers[RootName].(level := level, handlers := FileAndTerminal(c))];
    assert ModuleLevelsOutcome(start, [], ls) == SetupOutcome(start, None);
  }

  /**
   * The logger table `get_logger` works on: the current one once set up,
   * otherwise the one its own `setup` call leaves, with the root at DEBUG in
   * test mode and at INFO otherwise.
   */
  function LazySetup(initialized: bool, loggers: map<string, LoggerState>, ls: Levels.LevelState, testMode: bool, connects: Address -> bool): (r: map<string, LoggerState>)
    requires RootName in loggers
    ensures loggers.Keys <= r.Keys
    ensures !initialized ==> r[RootName].level == if testMode then Levels.Debug else Levels.Info
  {
    var level := if testMode then Levels.Debug else Levels.Info;
    DefaultSetupSucceeds(loggers, ls, level, testMode, connects);
    if initialized then loggers else SetupSpec(loggers, ls, DefaultConfig(level), testMode, connects).loggers
  }

  /**
   * The factory and the part of the `logging` module it drives: the
   * `_initialized` flag, the cached global logger (by name), the logger
   * table, the class new loggers get and the level tables.
   */
  class LoggerFactory {
    var initialized: bool
    var globalLogger: Option<string>
    var loggers: map<string, LoggerState>
    var traceClass: bool
    const levels: Levels.LevelTable

    ghost predicate Valid()
      reads this
    {
      && RootName in loggers
      && (globalLogger.Some? ==> globalLogger.value in loggers)
    }

    /** The state at import time: nothing configured, only the root logger. */
    constructor ()
      ensures Valid()
      ensures !initialized && globalLogger.None? && !traceClass
      ensures loggers == map[RootName := RootInitial]
      ensures levels.State() == Levels.StandardState
      ensures fresh(levels)
    {
      initialized := false;
      globalLogger := None;
      loggers := map[RootName := RootInitial];
      traceClass := false;
      levels := new Levels.LevelTable.Standard();
    }

    /**
     * `setup`: registers TRACE, makes `TraceLogger` the logger class, then
     * configures the root logger and the module levels. `testMode` is what
     * `is_test_mode()` returns; `connects` is the syslog socket outcome.
     */
    method Setup(c: Config, testMode: bool, connects: Address -> bool) returns (r: Result<(), FactoryError>)
      requires Valid()
      modifies this, levels
      ensures Valid()
      ensures levels.State() == Levels.Registered(old(levels.State()))
      ensures traceClass
      ensures loggers == SetupSpec(old(loggers), levels.State(), c, testMode, connects).loggers
      ensures r.Failure? <==> SetupSpec(old(loggers), levels.State(), c, testMode, connects).failed.Some?
      ensures r.Failure? ==> r.error == SetupSpec(old(loggers), levels.State(), c, testMode, connects).failed.value
      ensures initialized == (old(initialized) || r.Success?)
      ensures globalLogger == old(globalLogger)
    {
      levels.RegisterTraceLevel();
      traceClass := true;
      var outcome := ConfigureLoggers(loggers, levels.State(), c, testMode, connects);
      loggers := outcome.loggers;
      if outcome.failed.Some? {
        return Failure(outcome.failed.value);
      }
      initialized := true;
      r := Success(());
    }

    /**
     * `get_logger`: sets up on first use (DEBUG in test mode, INFO
     * otherwise), gets or creates the logger and sets its level when one is
     * given. A level name `setLevel` does not know raises after the logger
     * exists.
     */
    method GetLogger(name: string, level: Option<LevelArg>, testMode: bool, connects: Address -> bool)
      returns (r: Result<string, FactoryError>)
      requires Valid()
      modifies this, levels
      ensures Valid()
      ensures initialized && globalLogger == old(globalLogger)
      ensures old(initialized) ==> levels.State() == old(levels.State()) && traceClass == old(traceClass)
      ensures !old(initialized) ==> levels.State() == Levels.Registered(old(levels.State())) && traceClass
      ensures var created := Ensured(LazySetup(old(initialized), old(loggers), levels.State(), testMode, connects), name, traceClass);
        var key := Canonical(name);
        && (level.None? ==> r == Success(key) && loggers == created)
        && (level.Some? && CheckLevel(levels.State(), ArgValue(level.value)).Failure? ==>
              r == Failure(CheckLevel(levels.State(), ArgValue(level.value)).error) && loggers == created)
        && (level.Some? && CheckLevel(levels.State(), ArgValue(level.value)).Success? ==>
              r == Success(key)
              && loggers == created[key := created[key].(level := CheckLevel(levels.State(), ArgValue(level.value)).value)])
    {
      if !initialized {
        DefaultSetupSucceeds(loggers, Levels.Registered(levels.State()), if testMode then Levels.Debug else Levels.Info, testMode, connects);
        var _ := Setup(DefaultConfig(if testMode then Levels.Debug else Levels.Info), testMode, connects);
      }
      loggers := Ensured(loggers, name, traceClass);
      var key := Canonical(name);
      if level.Some? {
        var checked := CheckLevel(levels.State(), ArgValue(level.value));
        if checked.Failure? {
          return Failure(checked.error);
        }
        loggers := loggers[key := loggers[key].(level := checked.value)];
      }
      r := Success(key);
    }

    /**
     * `get_json_logger`: "arlogi.json." + name, not propagating, level
     * DEBUG, its handlers replaced by one JSON handler (to the file when a
     * file name is given, else to a stream).
     */
    method GetJsonLogger(name: string, jsonFileName: Option<string>) returns (key: string)
      requires Valid()
      modifies this
      ensures Valid()
      ensures key == "arlogi.json." + name
      ensures var handler := if jsonFileName.Some? && jsonFileName.value != "" then JsonFileHandler(jsonFileName.value) else JsonStreamHandler;
        loggers == old(Ensured(loggers, key, traceClass))[key := LoggerState(Levels.Debug, false, [handler], old(Ensured(loggers, key, traceClass))[key].isTraceLogger)]
      ensures initialized == old(initialized) && globalLogger == old(globalLogger) && traceClass == old(traceClass)
    {
      key := "arlogi.json." + name;
      assert key != "" && key != RootName by {
        assert |key| > |RootName|;
      }
      loggers := Ensured(loggers, key, traceClass);
      loggers := loggers[key := loggers[key].(propagate := false)];
      if jsonFileName.Some? && jsonFileName.value != "" {
        loggers := loggers[key := loggers[key].(handlers := [JsonFileHandler(jsonFileName.value)])];
      } else {
        loggers := loggers[key := loggers[key].(handlers := [JsonStreamHandler])];
      }
      loggers := loggers[key := loggers[key].(level := Levels.Debug)];
    }

    /**
     * `get_syslog_logger`: "arlogi.syslog." + name, not propagating, level
     * DEBUG, its handlers replaced by one syslog handler. When the handler
     * raises, the logger is left created and no longer propagating.
     */
    method GetSyslogLogger(name: string, address: Address, connects: Address -> bool) returns (r: Result<string, FactoryError>)
      requires Valid()
      modifies this
      ensures Valid()
      ensures var key := "arlogi.syslog." + name;
        var before := old(Ensured(loggers, key, traceClass));
        && (NewSyslogHandler(address, connects).Failure? ==>
              r == Failure(SyslogUnavailable(address)) && loggers == before[key := before[key].(propagate := false)])
        && (NewSyslogHandler(address, connects).Success? ==>
              r == Success(key)
              && loggers == before[key := LoggerState(Levels.Debug, false, [NewSyslogHandler(address, connects).value], before[key].isTraceLogger)])
      ensures initialized == old(initialized) && globalLogger == old(globalLogger) && traceClass == old(traceClass)
    {
      var key := "arlogi.syslog." + name;
      assert key != "" && key != RootName by {
        assert |key| > |RootName|;
      }
      loggers := Ensured(loggers, key, traceClass);
      loggers := loggers[key := loggers[key].(propagate := false)];
      var handler := NewSyslogHandler(address, connects);
      if handler.Failure? {
        return Failure(SyslogUnavailable(handler.error));
      }
      loggers := loggers[key := loggers[key].(handlers := [handler.value])];
      loggers := loggers[key := loggers[key].(level := Levels.Debug)];
      r := Success(key);
    }

    /**
     * `get_global_logger`: the "app" logger, fetched through `get_logger`
     * on the first call and cached; later calls return the cached logger and
     * change nothing.
     */
    method GetGlobalLogger(testMode: bool, connects: Address -> bool) returns (key: string)
      requires Valid()
      modifies this, levels
      ensures Valid()
      ensures globalLogger == Some(key) && key in loggers
      ensures old(globalLogger).Some? ==>
        key == old(globalLogger).value && loggers == old(loggers) && initialized == old(initialized)
        && levels.State() == old(levels.State())
      ensures old(globalLogger).None? ==>
        && key == GlobalLoggerName && initialized
        && (old(initialized) ==> levels.State() == old(levels.State()) && traceClass == old(traceClass))
        && (!old(initialized) ==> levels.State() == Levels.Registered(old(levels.State())) && traceClass)
        && loggers == Ensured(LazySetup(old(initialized), old(loggers), levels.State(), testMode, connects), GlobalLoggerName, traceClass)
    {
      if globalLogger.None? {
        var r := GetLogger(GlobalLoggerName, None, testMode, connects);
        globalLogger := Some(r.value);
      }
      key := globalLogger.value;
    }
  }
}

=== FILE: handlers.dfy ===
/**
 * The handlers: the colored console handler's level styles and level
 * indicator, the JSON formatter's field assembly, and the syslog handler's
 * fallback when its socket cannot be set up.
 */
module Handlers {
  import opened Wrappers
  import opened Strings
  import opened Values

  // ---- colored console ----

  /** The style of each level name before user overrides. */
  const DefaultStyles: map<string, string> := map[
    "trace" := "grey37", "debug" := "grey37", "info" := "grey69",
    "warning" := "yellow", "error" := "red", "critical" := "bold red"]

  const DefaultStyle := "default"

  /** Where the console writes: a console the caller passed in, or a forced-color stdout console. */
  datatype ConsoleTarget = ForcedStdout | GivenConsole(id: string)

  /** The state of a `ColoredConsoleHandler` once constructed. */
  datatype ConsoleConfig = ConsoleConfig(
    showTime: bool, showLevel: bool, showPath: bool,
    levelStyles: map<string, string>,
    console: ConsoleTarget, richTracebacks: bool, markup: bool)

  /**
   * `ColoredConsoleHandler.__init__`: the default styles updated with the
   * user's styles when those are given and non-empty; a forced-color stdout
   * console unless one is passed; rich tracebacks and markup on unless the
   * caller says otherwise.
   */
  method NewColoredConsoleHandler(showTime: bool, showLevel: bool, showPath: bool,
                                  levelStyles: Option<map<string, string>>,
                                  console: Option<string>, richTracebacks: Option<bool>, markup: Option<bool>)
    returns (h: ConsoleConfig)
    ensures h.showTime == showTime && h.showLevel == showLevel && h.showPath == showPath
    ensures levelStyles.None? ==> h.levelStyles == DefaultStyles
    ensures levelStyles.Some? ==> h.levelStyles.Keys == DefaultStyles.Keys + levelStyles.value.Keys
    ensures levelStyles.Some? ==> forall k | k in levelStyles.value :: h.levelStyles[k] == levelStyles.value[k]
    ensures forall k | k in DefaultStyles && (levelStyles.None? || k !in levelStyles.value) ::
      h.levelStyles[k] == DefaultStyles[k]
    ensures h.console == if console.Some? then GivenConsole(console.value) else ForcedStdout
    ensures h.richTracebacks == richTracebacks.GetOr(true)
    ensures h.markup == markup.GetOr(true)
  {
    var styles := DefaultStyles;
    if levelStyles.Some? && levelStyles.value != map[] {
      styles := styles + levelStyles.value;
    }
    var target := ForcedStdout;
    if console.Some? {
      target := GivenConsole(console.value);
    }
    h := ConsoleConfig(showTime, showLevel, showPath, styles, target,
                       richTracebacks.GetOr(true), markup.GetOr(true));
  }

  /** Styled text as `rich.text.Text` holds it. */
  datatype StyledText = StyledText(text: string, style: string)

  /** The style looked up for a level name: its lower-cased entry, or "default". */
  function StyleFor(styles: map<string, string>, levelName: string): (r: string)
    ensures Lower(levelName) in styles ==> r == styles[Lower(levelName)]
    ensures Lower(levelName) !in styles ==> r == DefaultStyle
  {
    var key := Lower(levelName);
    if key in styles then styles[key] else DefaultStyle
  }

  /**
   * `get_level_text`: the first character of the level name and a space, in
   * the level's style. `None` for an empty level name, where indexing raises.
   */
  function LevelText(h: ConsoleConfig, levelName: string): (r: Option<StyledText>)
    ensures r.None? <==> levelName == []
    ensures r.Some? ==> r.value.text == [levelName[0], ' '] && r.value.style == StyleFor(h.levelStyles, levelName)
  {
    if levelName == [] then None else Some(StyledText([levelName[0], ' '], StyleFor(h.levelStyles, levelName)))
  }

  /**
   * `render_message`: the rendered message restyled as a whole with the
   * level's style. `rendered` is what `RichHandler.render_message` returns.
   */
  function RenderMessage(h: ConsoleConfig, levelName: string, rendered: string): (r: StyledText)
    ensures r.text == rendered
    ensures r.style == StyleFor(h.levelStyles, levelName)
  {
    StyledText(rendered, StyleFor(h.levelStyles, levelName))
  }

  /** Level indicator and message always share one style. */
  lemma IndicatorMatchesMessage(h: ConsoleConfig, levelName: string, rendered: string)
    requires levelName != []
    ensures LevelText(h, levelName).value.style == RenderMessage(h, levelName, rendered).style
  {
  }

  /**
   * With the default table, the standard level names and TRACE get their
   * listed styles whatever their case, and other names get "default".
   */
  lemma DefaultStyleLookup()
    ensures StyleFor(DefaultStyles, "TRACE") == "grey37"
    ensures StyleFor(DefaultStyles, "DEBUG") == "grey37"
    ensures StyleFor(DefaultStyles, "INFO") == "grey69"
    ensures StyleFor(DefaultStyles, "WARNING") == "yellow"
    ensures StyleFor(DefaultStyles, "ERROR") == "red"
    ensures StyleFor(DefaultStyles, "CRITICAL") == "bold red"
    ensures StyleFor(DefaultStyles, "Level 7") == DefaultStyle
  {
    assert Lower("TRACE") == "trace";
    assert Lower("DEBUG") == "debug";
    assert Lower("INFO") == "info";
    assert Lower("WARNING") == "warning";
    assert Lower("ERROR") == "error";
    assert Lower("CRITICAL") == "critical";
    assert Lower("Level 7")[0] == 'l';
  }

  /**
   * A user style whose key contains an upper-case letter is stored but
   * never found: the lookup key is always lower case.
   */
  lemma UpperCaseKeyUnused(styles: map<string, string>, key: string, levelName: string)
    requires key in styles
    requires exists i :: 0 <= i < |key| && 'A' <= key[i] <= 'Z'
    ensures StyleFor(styles, levelName) == StyleFor(styles - {key}, levelName)
  {
    var i :| 0 <= i < |key| && 'A' <= key[i] <= 'Z';
    if |levelName| == |key| {
      assert Lower(levelName)[i] != key[i];
    }
    assert Lower(levelName) != key;
  }

  // ---- JSON formatter ----

  /**
   * The parts of a `logging.LogRecord` the formatter reads. `message` is
   * what `getMessage()` returns and `attributes` is the record's `__dict__`.
   */
  datatype LogRecord = LogRecord(
    name: string, levelname: string, message: string, moduleName: string,
    funcName: string, lineno: int, excInfo: Value,
    attributes: map<string, Value>)

  /** The record attributes the formatter never copies. */
  const StandardAttrs: set<string> := {
    "name", "msg", "args", "levelname", "levelno", "pathname", "filename",
    "module", "exc_info", "exc_text", "stack_info", "lineno", "funcName",
    "created", "msecs", "relativeCreated", "thread", "threadName",
    "processName", "process", "message"}

  /** The seven fields every JSON entry starts with. */
  const BaseKeys: set<string> := {
    "timestamp", "level", "logger_name", "message", "module", "function", "line_number"}

  /** An attribute is copied iff it is not standard and not private. */
  predicate Copied(key: string) {
    key !in StandardAttrs && !StartsWith(key, "_")
  }

  /** The seven base fields; `timestamp` is the ISO rendering of the creation time. */
  function BaseFields(record: LogRecord, timestamp: string): map<string, Value> {
    map[
      "timestamp" := VStr(timestamp),
      "level" := VStr(record.levelname),
      "logger_name" := VStr(record.name),
      "message" := VStr(record.message),
      "module" := VStr(record.moduleName),
      "function" := VStr(record.funcName),
      "line_number" := VInt(record.lineno)]
  }

  /** The copied attributes of a record. */
  function CopiedAttributes(record: LogRecord): map<string, Value> {
    map k | k in record.attributes && Copied(k) :: record.attributes[k]
  }

  /**
   * The dictionary `format` hands to `json.dumps`: base fields, then the
   * formatted exception when `exc_info` is truthy, then the copied
   * attributes, each overwriting a same-named earlier entry.
   */
  function LogData(record: LogRecord, timestamp: string, formatException: Value -> string): map<string, Value> {
    var base := BaseFields(record, timestamp);
    var withException :=
      if Truthy(record.excInfo) then base["exception" := VStr(formatException(record.excInfo))] else base;
    withException + CopiedAttributes(record)
  }

  /**
   * `JSONFormatter.format`, up to the encoding of the document as text.
   */
  method Format(record: LogRecord, timestamp: string, formatException: Value -> string) returns (doc: Json)
    ensures doc == ToJson(VDict(LogData(record, timestamp, formatException)))
  {
    var logData := BaseFields(record, timestamp);
    if Truthy(record.excInfo) {
      logData := logData["exception" := VStr(formatException(record.excInfo))];
    }
    ghost var start := logData;
    var keys := record.attributes.Keys;
    while keys != {}
      invariant keys <= record.attributes.Keys
      invariant forall k :: k in logData <==> k in start || (k in record.attributes && k !in keys && Copied(k))
      invariant forall k | k in logData ::
        logData[k] == if k in record.attributes && k !in keys && Copied(k) then record.attributes[k] else start[k]
      decreases keys
    {
      var key :| key in keys;
      if Copied(key) {
        logData := logData[key := record.attributes[key]];
      }
      keys := keys - {key};
    }
    CopiedAll(record, timestamp, formatException, start, logData);
    doc := ToJson(VDict(logData));
  }

  /** The loop's final dictionary is the exception-extended base updated with the copied attributes. */
  lemma CopiedAll(record: LogRecord, timestamp: string, formatException: Value -> string,
                  start: map<string, Value>, logData: map<string, Value>)
    requires start == if Truthy(record.excInfo)
      then BaseFields(record, timestamp)["exception" := VStr(formatException(record.excInfo))]
      else BaseFields(record, timestamp)
    requires forall k :: k in logData <==> k in start || (k in record.attributes && Copied(k))
    requires forall k | k in logData ::
      logData[k] == if k in record.attributes && Copied(k) then record.attributes[k] else start[k]
    ensures logData == LogData(record, timestamp, formatException)
  {
  }

  /**
   * The fields of a JSON entry: the seven base keys are always present,
   * "exception" iff `exc_info` is truthy or an attribute carries that name,
   * and otherwise exactly the copied attributes.
   */
  lemma LogDataKeys(record: LogRecord, timestamp: string, formatException: Value -> string)
    ensures BaseKeys <= LogData(record, timestamp, formatException).Keys
    ensures forall k :: k in LogData(record, timestamp, formatException) <==>
      k in BaseKeys || (k == "exception" && Truthy(record.excInfo)) || (k in record.attributes && Copied(k))
  {
  }

  /**
   * The values of a JSON entry: "message" and "module" are standard names
   * and so are never overwritten; every copied attribute wins over a base
   * field or the exception of the same name.
   */
  lemma LogDataValues(record: LogRecord, timestamp: string, formatException: Value -> string)
    ensures forall k | k in record.attributes && Copied(k) ::
      LogData(record, timestamp, formatException)[k] == record.attributes[k]
    ensures LogData(record, timestamp, formatException)["message"] == VStr(record.message)
    ensures LogData(record, timestamp, formatException)["module"] == VStr(record.moduleName)
    ensures Truthy(record.excInfo) && "exception" !in record.attributes ==>
      LogData(record, timestamp, formatException)["exception"] == VStr(formatException(record.excInfo))
    ensures "level" !in record.attributes ==>
      LogData(record, timestamp, formatException)["level"] == VStr(record.levelname)
  {
    assert "message" in StandardAttrs && "module" in StandardAttrs;
  }

  /** No private or standard attribute ever reaches the output. */
  lemma NoPrivateFields(record: LogRecord, timestamp: string, formatException: Value -> string, k: string)
    requires k in LogData(record, timestamp, formatException)
    requires k !in BaseKeys && k != "exception"
    ensures k !in StandardAttrs && !StartsWith(k, "_")
  {
    LogDataKeys(record, timestamp, formatException);
  }

  /**
   * The document decodes back to the assembled dictionary when every copied
   * attribute is natively serialisable; other values arrive as their
   * string form instead of failing.
   */
  lemma FormatDecodes(record: LogRecord, timestamp: string, formatException: Value -> string)
    requires forall k | k in record.attributes && Copied(k) :: Serializable(record.attributes[k])
    ensures FromJson(ToJson(VDict(LogData(record, timestamp, formatException)))) == VDict(LogData(record, timestamp, formatException))
  {
    var d := LogData(record, timestamp, formatException);
    forall k | k in d ensures Serializable(d[k]) {
      if !(k in record.attributes && Copied(k)) {
        assert k in BaseFields(record, timestamp) || k == "exception";
      }
    }
    assert Serializable(VDict(d));
    JsonRoundTrip(VDict(d));
  }

  // ---- syslog ----

  /** A syslog destination: a Unix socket path or a UDP (host, port) pair. */
  datatype Address = UnixSocket(path: string) | Udp(host: string, port: int)

  const DevLog := UnixSocket("/dev/log")
  const LocalUdp := Udp("localhost", 514)

  /** Which formatter a handler carries. */
  datatype Formatter = JsonFormatter | SyslogFormatter | NoFormatter

  /** The handlers the factory installs. */
  datatype Handler =
    | ConsoleHandler(config: ConsoleConfig)
    | JsonStreamHandler
    | JsonFileHandler(fileName: string)
    | SyslogHandler(address: Address, connected: bool, formatter: Formatter)

  /** The formatter each handler uses. */
  function HandlerFormatter(h: Handler): Formatter {
    match h
    case ConsoleHandler(_) => NoFormatter
    case JsonStreamHandler => JsonFormatter
    case JsonFileHandler(_) => JsonFormatter
    case SyslogHandler(_, _, f) => f
  }

  /**
   * `ArlogiSyslogHandler.__init__`. `connects` says whether the base
   * handler can be set up for an address. When it fails for "/dev/log",
   * the handler is set up once more for UDP on localhost port 514 and kept
   * whatever the outcome, without the syslog formatter; for any other
   * address the error propagates (`Failure`).
   */
  function NewSyslogHandler(address: Address, connects: Address -> bool): (r: Result<Handler, Address>)
    ensures connects(address) ==> r == Success(SyslogHandler(address, true, SyslogFormatter))
    ensures !connects(address) && address == DevLog ==>
      r == Success(SyslogHandler(LocalUdp, connects(LocalUdp), NoFormatter))
    ensures r.Failure? <==> !connects(address) && address != DevLog
  {
    if connects(address) then Success(SyslogHandler(address, true, SyslogFormatter))
    else if address == DevLog then Success(SyslogHandler(LocalUdp, connects(LocalUdp), NoFormatter))
    else Failure(address)
  }

  /** The handler carries the syslog formatter exactly when the first attempt succeeded. */
  lemma SyslogFormatterIffPrimary(address: Address, connects: Address -> bool)
    requires NewSyslogHandler(address, connects).Success?
    ensures HandlerFormatter(NewSyslogHandler(address, connects).value) == SyslogFormatter <==> connects(address)
  {
  }

  /** The default address never raises: it always yields a handler. */
  lemma DevLogNeverRaises(connects: Address -> bool)
    ensures NewSyslogHandler(DevLog, connects).Success?
  {
  }
}

=== FILE: levels.dfy ===
/**
 * The TRACE severity level: its registration into the `logging` module's
 * level tables, and the `trace` method installed on every logger.
 */
module Levels {
  import opened Wrappers
  import opened Values

  const TraceLevelNum := 5
  const TraceLevelName := "TRACE"

  // The standard levels of Python's `logging` module.
  const NotSet := 0
  const Debug := 10
  const Info := 20
  const Warning := 30
  const Error := 40
  const Critical := 50

  /** What reaches `Logger._log`: level, message, positional and keyword arguments. */
  datatype LogCall = LogCall(level: int, msg: Value, args: seq<Value>, kwargs: map<string, Value>)

  /**
   * The part of the `logging` module that level registration touches: its
   * upper-case attributes (the level constants and the two format tables),
   * the two level-name tables and whether `Logger.trace` has been installed.
   */
  datatype LevelState = LevelState(
    attributes: map<string, Value>,
    levelToName: map<int, string>,
    nameToLevel: map<string, int>,
    hasTraceMethod: bool)

  /** `logging.BASIC_FORMAT`. */
  const BasicFormat := "%(levelname)s:%(name)s:%(message)s"

  /** `logging._STYLES`: each format style's class and default format. */
  const Styles := VDict(map[
    "%" := VList([VObject("<class 'logging.PercentStyle'>"), VStr(BasicFormat)]),
    "{" := VList([VObject("<class 'logging.StrFormatStyle'>"), VStr("{levelname}:{name}:{message}")]),
    "$" := VList([VObject("<class 'logging.StringTemplateStyle'>"), VStr("${levelname}:${name}:${message}")])])

  const StandardState := LevelState(
    map["CRITICAL" := VInt(Critical), "FATAL" := VInt(Critical), "ERROR" := VInt(Error),
        "WARNING" := VInt(Warning), "WARN" := VInt(Warning), "INFO" := VInt(Info),
        "DEBUG" := VInt(Debug), "NOTSET" := VInt(NotSet),
        "BASIC_FORMAT" := VStr(BasicFormat), "_STYLES" := Styles],
    map[Critical := "CRITICAL", Error := "ERROR", Warning := "WARNING", Info := "INFO",
        Debug := "DEBUG", NotSet := "NOTSET"],
    map["CRITICAL" := Critical, "FATAL" := Critical, "ERROR" := Error, "WARN" := Warning,
        "WARNING" := Warning, "INFO" := Info, "DEBUG" := Debug, "NOTSET" := NotSet],
    false)

  /**
   * The state `register_trace_level` leaves: unchanged when the module
   * already has a `TRACE` attribute, otherwise with name and number linked
   * both ways and the `trace` method installed.
   */
  function Registered(s: LevelState): (r: LevelState)
    ensures TraceLevelName in r.attributes
    ensures TraceLevelName in s.attributes ==> r == s
    ensures TraceLevelName !in s.attributes ==>
      && r.attributes[TraceLevelName] == VInt(TraceLevelNum)
      && TraceLevelNum in r.levelToName && r.levelToName[TraceLevelNum] == TraceLevelName
      && TraceLevelName in r.nameToLevel && r.nameToLevel[TraceLevelName] == TraceLevelNum
      && r.hasTraceMethod
  {
    if TraceLevelName in s.attributes then s
    else LevelState(
      s.attributes[TraceLevelName := VInt(TraceLevelNum)],
      s.levelToName[TraceLevelNum := TraceLevelName],
      s.nameToLevel[TraceLevelName := TraceLevelNum],
      true)
  }

  /** Registering twice leaves the same tables as registering once. */
  lemma RegisterIdempotent(s: LevelState)
    ensures Registered(Registered(s)) == Registered(s)
  {
  }

  /** Registration touches no other attribute, level number or level name. */
  lemma RegisterChangesOnlyTrace(s: LevelState)
    ensures forall a | a in s.attributes && a != TraceLevelName ::
      a in Registered(s).attributes && Registered(s).attributes[a] == s.attributes[a]
    ensures forall n | n in s.levelToName && n != TraceLevelNum ::
      n in Registered(s).levelToName && Registered(s).levelToName[n] == s.levelToName[n]
    ensures forall a | a in s.nameToLevel && a != TraceLevelName ::
      a in Registered(s).nameToLevel && Registered(s).nameToLevel[a] == s.nameToLevel[a]
    ensures Registered(s).attributes.Keys == s.attributes.Keys + {TraceLevelName}
  {
  }

  /** From the standard tables, TRACE ends up linked to 5 in both directions. */
  lemma RegisterFromStandard()
    ensures Registered(StandardState).nameToLevel[TraceLevelName] == TraceLevelNum
    ensures Registered(StandardState).levelToName[TraceLevelNum] == TraceLevelName
    ensures Registered(StandardState).hasTraceMethod
  {
  }

  /** The `logging` module's level tables, which `register_trace_level` mutates. */
  class LevelTable {
    var attributes: map<string, Value>
    var levelToName: map<int, string>
    var nameToLevel: map<string, int>
    var hasTraceMethod: bool

    function State(): LevelState
      reads this
    {
      LevelState(attributes, levelToName, nameToLevel, hasTraceMethod)
    }

    /** The tables as `import logging` leaves them. */
    constructor Standard()
      ensures State() == StandardState
    {
      attributes := StandardState.attributes;
      levelToName := StandardState.levelToName;
      nameToLevel := StandardState.nameToLevel;
      hasTraceMethod := false;
    }

    /** `register_trace_level`: guarded by the presence of the `TRACE` attribute. */
    method RegisterTraceLevel()
      modifies this
      ensures State() == Registered(old(State()))
    {
      if TraceLevelName in attributes {
        return;
      }
      levelToName := levelToName[TraceLevelNum := TraceLevelName];
      nameToLevel := nameToLevel[TraceLevelName := TraceLevelNum];
      attributes := attributes[TraceLevelName := VInt(TraceLevelNum)];
      hasTraceMethod := true;
    }
  }

  /**
   * The `trace` method installed on `Logger`: a call at level 5, made only
   * when the logger is enabled for level 5 (`enabled` stands for
   * `isEnabledFor`).
   */
  function PatchedTrace(msg: Value, args: seq<Value>, kwargs: map<string, Value>, enabled: int -> bool): (r: Option<LogCall>)
    ensures r.Some? <==> enabled(TraceLevelNum)
    ensures r.Some? ==> r.value == LogCall(TraceLevelNum, msg, args, kwargs)
  {
    if enabled(TraceLevelNum) then Some(LogCall(TraceLevelNum, msg, args, kwargs)) else None
  }
}

=== FILE: refpages.dfy ===
/**
 * The reference-page generator: name extraction from module text, the skip
 * rule, module paths and page titles, and the nested navigation menu with
 * its sorted, indented rendering. Files are given as (relative path parts,
 * content) pairs.
 */
module RefPages {
  import opened Wrappers
  import opened Strings
  import opened Sorting

  // ---- name extraction ----

  /** The length of the run of word characters starting at `s`. */
  function WordRun(content: string, s: nat): (n: nat)
    requires s <= |content|
    ensures s + n <= |content|
    ensures forall i :: s <= i < s + n ==> IsWordChar(content[i])
    ensures s + n == |content| || !IsWordChar(content[s + n])
    decreases |content| - s
  {
    if s < |content| && IsWordChar(content[s]) then 1 + WordRun(content, s + 1) else 0
  }

  /**
   * The pattern `kw\s(\w+)` followed by one of `delims`, matched at `i`:
   * the captured name and the index just past the delimiter. The word run is
   * maximal: a shorter one would be followed by a word character, which is
   * not a delimiter.
   */
  function MatchBody(content: string, i: nat, kw: string, delims: set<char>): (r: Option<(string, nat)>)
    ensures r.Some? ==>
      && i + |kw| + 1 < r.value.1 <= |content|
      && content[i..i + |kw|] == kw && IsSpace(content[i + |kw|])
      && r.value.0 == content[i + |kw| + 1..r.value.1 - 1]
      && |r.value.0| > 0 && (forall k :: 0 <= k < |r.value.0| ==> IsWordChar(r.value.0[k]))
      && content[r.value.1 - 1] in delims
  {
    if i + |kw| + 1 <= |content| && content[i..i + |kw|] == kw && IsSpace(content[i + |kw|]) then
      var s := i + |kw| + 1;
      var n := WordRun(content, s);
      if n > 0 && s + n < |content| && content[s + n] in delims then Some((content[s..s + n], s + n + 1))
      else None
    else None
  }

  /**
   * A match of `(?:^|\n)kw\s(\w+)delim` starting at `p`: `^` (start of
   * text only, no multiline flag) is tried before `\n`.
   */
  function MatchAt(content: string, p: nat, kw: string, delims: set<char>): (r: Option<(string, nat)>)
    ensures r.Some? ==> p < r.value.1 <= |content|
    ensures r.Some? ==> |r.value.0| > 0 && (forall k :: 0 <= k < |r.value.0| ==> IsWordChar(r.value.0[k]))
    ensures r.Some? && p > 0 ==> content[p] == '\n'
  {
    var atStart := if p == 0 then MatchBody(content, 0, kw, delims) else None;
    if atStart.Some? then atStart
    else if p < |content| && content[p] == '\n' then MatchBody(content, p + 1, kw, delims)
    else None
  }

  /** A non-empty run of word characters, as `(\w+)` captures it. */
  predicate IsWord(s: string) {
    |s| > 0 && forall k :: 0 <= k < |s| ==> IsWordChar(s[k])
  }

  /**
   * `re.findall`: after a match the scan resumes where the match ended; at
   * most one name per character scanned, every one a word.
   */
  function FindAll(content: string, pos: nat, kw: string, delims: set<char>): (r: seq<string>)
    ensures pos <= |content| ==> |r| <= |content| - pos
    ensures forall n | n in r :: IsWord(n)
    decreases |content| - pos
  {
    if pos >= |content| then []
    else match MatchAt(content, pos, kw, delims)
      case Some((name, end)) => [name] + FindAll(content, end, kw, delims)
      case None => FindAll(content, pos + 1, kw, delims)
  }

  /** The names matched at every position from `pos` on, in order. */
  function LineScan(content: string, pos: nat, kw: string, delims: set<char>): seq<string>
    decreases |content| - pos
  {
    if pos >= |content| then []
    else match MatchAt(content, pos, kw, delims)
      case Some((name, _)) => [name] + LineScan(content, pos + 1, kw, delims)
      case None => LineScan(content, pos + 1, kw, delims)
  }

  /** The keyword and delimiters can never overlap a line break. */
  predicate WellFormedPattern(kw: string, delims: set<char>) {
    && (forall k :: 0 <= k < |kw| ==> IsWordChar(kw[k]))
    && (forall c | c in delims :: !IsSpace(c) && !IsWordChar(c))
  }

  lemma WordCharNotSpace(c: char)
    requires IsWordChar(c)
    ensures !IsSpace(c) && c != '\n'
  {
  }

  /** A body match at `i` contains a line break only at its whitespace position. */
  lemma BodyBreaks(content: string, i: nat, kw: string, delims: set<char>, q: nat)
    requires WellFormedPattern(kw, delims)
    requires MatchBody(content, i, kw, delims).Some?
    requires i <= q < MatchBody(content, i, kw, delims).value.1 && q != i + |kw|
    ensures content[q] != '\n'
  {
    var end := MatchBody(content, i, kw, delims).value.1;
    if q < i + |kw| {
      assert content[q] == kw[q - i];
      WordCharNotSpace(kw[q - i]);
    } else if q < end - 1 {
      var name := MatchBody(content, i, kw, delims).value.0;
      assert content[q] == name[q - (i + |kw| + 1)];
      WordCharNotSpace(name[q - (i + |kw| + 1)]);
    }
  }

  /** No match can start at the whitespace position of a body match. */
  lemma NoBodyAfterBreak(content: string, i: nat, kw: string, delims: set<char>)
    requires WellFormedPattern(kw, delims)
    requires MatchBody(content, i, kw, delims).Some?
    ensures MatchBody(content, i + |kw| + 1, kw, delims).None?
  {
    var s := i + |kw| + 1;
    if s + |kw| < |content| && content[s..s + |kw|] == kw {
      var n := WordRun(content, s);
      assert forall k :: 0 <= k < |kw| ==> content[s + k] == kw[k];
      assert n >= |kw|;
      if n > |kw| {
        WordCharNotSpace(content[s + |kw|]);
      } else {
        assert content[s + |kw|] in delims;
      }
    }
  }

  /** Matches never overlap: none starts strictly inside another. */
  lemma {:induction false} NoMatchInside(content: string, p: nat, kw: string, delims: set<char>, q: nat)
    requires WellFormedPattern(kw, delims)
    requires MatchAt(content, p, kw, delims).Some?
    requires p < q < MatchAt(content, p, kw, delims).value.1
    ensures MatchAt(content, q, kw, delims).None?
  {
    var start := if p == 0 && MatchBody(content, 0, kw, delims).Some? then 0 else p + 1;
    assert MatchAt(content, p, kw, delims) == MatchBody(content, start, kw, delims);
    if q == start + |kw| {
      NoBodyAfterBreak(content, start, kw, delims);
    } else if q >= start {
      BodyBreaks(content, start, kw, delims, q);
    }
  }

  /** Positions without a match add nothing to the scan. */
  lemma {:induction false} ScanSkip(content: string, a: nat, b: nat, kw: string, delims: set<char>)
    requires a <= b <= |content|
    requires forall q :: a <= q < b ==> MatchAt(content, q, kw, delims).None?
    ensures LineScan(content, a, kw, delims) == LineScan(content, b, kw, delims)
    decreases b - a
  {
    if a < b {
      assert MatchAt(content, a, kw, delims).None?;
      ScanSkip(content, a + 1, b, kw, delims);
    }
  }

  /** `re.findall` finds exactly the matches at every position, in source order. */
  lemma {:induction false} FindAllIsScan(content: string, pos: nat, kw: string, delims: set<char>)
    requires WellFormedPattern(kw, delims)
    ensures FindAll(content, pos, kw, delims) == LineScan(content, pos, kw, delims)
    decreases |content| - pos
  {
    if pos < |content| {
      match MatchAt(content, pos, kw, delims)
      case Some((name, end)) =>
        FindAllIsScan(content, end, kw, delims);
        forall q | pos + 1 <= q < end ensures MatchAt(content, q, kw, delims).None? {
          NoMatchInside(content, pos, kw, delims, q);
        }
        ScanSkip(content, pos + 1, end, kw, delims);
      case None =>
        FindAllIsScan(content, pos + 1, kw, delims);
    }
  }

  const ClassKeyword := "class"
  const ClassDelims: set<char> := {'(', ':'}
  const DefKeyword := "def"
  const DefDelims: set<char> := {'('}

  /** Names that do not start with "_", in order. */
  function PublicNames(names: seq<string>): (r: seq<string>)
    ensures |r| <= |names|
  {
    if names == [] then []
    else (if StartsWith(names[0], "_") then [] else [names[0]]) + PublicNames(names[1..])
  }

  /** A name is kept iff it is listed and does not start with "_"; order is kept. */
  lemma {:induction false} PublicNamesMembers(names: seq<string>)
    ensures forall x :: x in PublicNames(names) <==> x in names && !StartsWith(x, "_")
    ensures (forall i :: 0 <= i < |names| ==> !StartsWith(names[i], "_")) ==> PublicNames(names) == names
  {
    if names != [] {
      PublicNamesMembers(names[1..]);
      assert names == [names[0]] + names[1..];
      if forall i :: 0 <= i < |names| ==> !StartsWith(names[i], "_") {
        assert forall i :: 0 <= i < |names[1..]| ==> !StartsWith(names[1..][i], "_") by {
          forall i | 0 <= i < |names[1..]| ensures !StartsWith(names[1..][i], "_") {
            assert names[1..][i] == names[i + 1];
          }
        }
      }
    }
  }

  /** `extract_classes_and_functions`: class names, then public function names, all of them words. */
  function ExtractClassesAndFunctions(content: string): (r: (seq<string>, seq<string>))
    ensures forall c | c in r.0 :: IsWord(c)
    ensures forall f | f in r.1 :: IsWord(f) && !StartsWith(f, "_")
  {
    var defs := FindAll(content, 0, DefKeyword, DefDelims);
    PublicNamesMembers(defs);
    (FindAll(content, 0, ClassKeyword, ClassDelims), PublicNames(defs))
  }

  /**
   * Classes are every unindented `class X(` or `class X:` and functions every
   * unindented public `def f(`, at the start of the text or of a line, in
   * source order; class names are never filtered.
   */
  lemma ExtractionByLine(content: string)
    ensures ExtractClassesAndFunctions(content).0 == LineScan(content, 0, ClassKeyword, ClassDelims)
    ensures ExtractClassesAndFunctions(content).1 == PublicNames(LineScan(content, 0, DefKeyword, DefDelims))
    ensures forall f | f in ExtractClassesAndFunctions(content).1 ::
      f in LineScan(content, 0, DefKeyword, DefDelims) && !StartsWith(f, "_")
  {
    FindAllIsScan(content, 0, ClassKeyword, ClassDelims);
    FindAllIsScan(content, 0, DefKeyword, DefDelims);
    PublicNamesMembers(FindAll(content, 0, DefKeyword, DefDelims));
  }

  // ---- titles, skip rule, module paths ----

  /**
   * The page title: the last dot-separated segment of the module path with
   * "_" replaced by " ", then capitalised.
   */
  function Title(modulePath: string): (r: string)
    ensures |r| == |LastSegment(modulePath, '.')|
    ensures '.' !in r && '_' !in r
    ensures forall i :: 0 < i < |r| ==> r[i] == LowerChar(ReplaceChar(LastSegment(modulePath, '.'), '_', ' ')[i])
    ensures |r| > 0 ==> r[0] == UpperChar(ReplaceChar(LastSegment(modulePath, '.'), '_', ' ')[0])
    ensures '\n' !in modulePath ==> '\n' !in r
  {
    var seg := LastSegment(modulePath, '.');
    var r := Capitalize(ReplaceChar(seg, '_', ' '));
    assert forall i :: 0 <= i < |r| ==> r[i] != '.' && r[i] != '_' && (r[i] == '\n' ==> seg[i] == '\n') by {
      forall i | 0 <= i < |r| ensures r[i] != '.' && r[i] != '_' && (r[i] == '\n' ==> seg[i] == '\n') {
        assert seg[i] != '.';
      }
    }
    assert '\n' !in modulePath ==> '\n' !in seg by {
      if '\n' in seg {
        var i :| 0 <= i < |seg| && seg[i] == '\n';
        assert modulePath[RFind(modulePath, '.') + 1 + i] == '\n';
      }
    }
    r
  }

  /** Only the segment after the last dot decides the title. */
  lemma TitleOfQualified(prefix: string, name: string)
    requires '.' !in name
    ensures Title(prefix + "." + name) == Title(name)
  {
    var s := prefix + "." + name;
    assert s[|prefix|] == '.';
    assert forall i :: |prefix| < i < |s| ==> s[i] == name[i - |prefix| - 1];
    assert RFind(s, '.') == |prefix|;
    assert LastSegment(s, '.') == name;
    assert RFind(name, '.') == -1;
  }

  /**
   * The text `create_markdown` writes. Read back line by line it is the
   * title heading, a blank line, the mkdocstrings directive for the module
   * with its two options, and a final newline.
   */
  function MarkdownText(modulePath: string): (r: string)
    ensures StartsWith(r, "# " + Title(modulePath) + "\n")
    ensures '\n' !in modulePath ==>
      Split(r, '\n') == ["# " + Title(modulePath), "", "::: " + modulePath, "    options:",
                         "      show_root_heading: false", "      show_source: true", ""]
  {
    var heading := "# " + Title(modulePath);
    var tail := ["::: " + modulePath, "    options:", "      show_root_heading: false", "      show_source: true"];
    var lines := [heading + "\n"] + tail;
    var r := Join(lines, "\n") + "\n";
    assert r[..|heading + "\n"|] == heading + "\n";
    assert '\n' !in modulePath ==> Split(r, '\n') == [heading, ""] + tail + [""] by {
      if '\n' !in modulePath {
        SplitJoinedLines(heading, tail, '\n');
      }
    }
    r
  }


  const InitFile := "__init__.py"

  /** A file is skipped iff some part of its relative path is private: starts with "_" and is not "__init__.py". */
  predicate Skipped(parts: seq<string>)
    ensures Skipped(parts) <==> exists i :: 0 <= i < |parts| && |parts[i]| > 0 && parts[i][0] == '_' && parts[i] != InitFile
  {
    assert forall i | 0 <= i < |parts| :: StartsWith(parts[i], "_") <==> |parts[i]| > 0 && parts[i][0] == '_' by {
      forall i | 0 <= i < |parts| ensures StartsWith(parts[i], "_") <==> |parts[i]| > 0 && parts[i][0] == '_' {
        UnderscorePrefix(parts[i]);
      }
    }
    exists i :: 0 <= i < |parts| && StartsWith(parts[i], "_") && parts[i] != InitFile
  }

  lemma UnderscorePrefix(s: string)
    ensures StartsWith(s, "_") <==> |s| > 0 && s[0] == '_'
  {
    if |s| > 0 && s[0] == '_' {
      assert s[..1] == "_";
    }
  }

  /** Package `__init__` files are kept, private modules and anything under a private directory are skipped. */
  lemma SkipExamples()
    ensures !Skipped(["arlogi", InitFile])
    ensures !Skipped(["arlogi", "factory.py"])
    ensures Skipped(["arlogi", "_version.py"])
    ensures Skipped(["arlogi", "__main__.py"])
    ensures Skipped(["_vendor", "factory.py"])
  {
    UnderscorePrefix("_version.py");
    UnderscorePrefix("__main__.py");
    UnderscorePrefix("_vendor");
    UnderscorePrefix("arlogi");
    UnderscorePrefix("factory.py");
    UnderscorePrefix(InitFile);
    assert ["arlogi", "_version.py"][1] == "_version.py";
    assert ["arlogi", "__main__.py"][1] == "__main__.py" && "__main__.py" != InitFile;
    assert ["_vendor", "factory.py"][0] == "_vendor";
  }

  /** `Path.suffix`: from the last dot on, unless that dot starts or ends the name. */
  function SuffixStart(name: string): (i: int)
    ensures -1 <= i < |name|
    ensures i >= 0 ==> 0 < i < |name| - 1 && name[i] == '.' && '.' !in name[i + 1..]
  {
    var i := RFind(name, '.');
    if 0 < i < |name| - 1 then
      assert forall k :: i + 1 <= k < |name| ==> name[k] != '.';
      i
    else -1
  }

  /** The name without its suffix (`with_suffix("")`). */
  function Stem(name: string): (r: string)
    ensures |r| <= |name|
  {
    var i := SuffixStart(name);
    if i >= 0 then name[..i] else name
  }

  /** `with_suffix(".md")`. */
  function MarkdownName(name: string): string {
    Stem(name) + ".md"
  }

  /**
   * The dotted module path of a source file: its relative path without the
   * suffix, "/" turned into "."; for "__init__.py" the package's own path,
   * which is "." for a top-level `__init__.py`.
   */
  function ModulePath(parts: seq<string>): (r: string)
    requires |parts| > 0
    ensures parts == [InitFile] ==> r == "."
    ensures (forall i | 0 <= i < |parts| - 1 :: '.' !in parts[i]) ==>
      && (parts[|parts| - 1] == InitFile && |parts| > 1 ==> Split(r, '.') == parts[..|parts| - 1])
      && (parts[|parts| - 1] != InitFile && '.' !in Stem(parts[|parts| - 1]) ==>
            Split(r, '.') == parts[..|parts| - 1] + [Stem(parts[|parts| - 1])])
  {
    var dirs := parts[..|parts| - 1];
    var name := parts[|parts| - 1];
    assert (forall i | 0 <= i < |parts| - 1 :: '.' !in parts[i]) ==> forall i | 0 <= i < |dirs| :: '.' !in dirs[i];
    if name == InitFile then
      (if dirs == [] then "."
       else
         assert (forall i | 0 <= i < |dirs| :: '.' !in dirs[i]) ==> Split(Join(dirs, "."), '.') == dirs by {
           if forall i | 0 <= i < |dirs| :: '.' !in dirs[i] {
             SplitJoin(dirs, '.');
           }
         }
         Join(dirs, "."))
    else
      var path := dirs + [Stem(name)];
      assert (forall i | 0 <= i < |dirs| :: '.' !in dirs[i]) && '.' !in Stem(name) ==> Split(Join(path, "."), '.') == path by {
        if (forall i | 0 <= i < |dirs| :: '.' !in dirs[i]) && '.' !in Stem(name) {
          assert forall i | 0 <= i < |path| :: '.' !in path[i];
          SplitJoin(path, '.');
        }
      }
      Join(path, ".")
  }


  /**
   * The title of a module page names the module (without suffix) and the
   * title of a package page names the package's directory, when the names
   * contain no dots.
   */
  lemma ModuleTitle(dirs: seq<string>, name: string)
    requires name != InitFile && '.' !in Stem(name)
    ensures Title(ModulePath(dirs + [name])) == Title(Stem(name))
  {
    var parts := dirs + [name];
    assert parts[..|parts| - 1] == dirs && parts[|parts| - 1] == name;
    if dirs != [] {
      JoinSnoc(dirs, Stem(name), ".");
      TitleOfQualified(Join(dirs, "."), Stem(name));
    }
  }

  lemma PackageTitle(dirs: seq<string>, pkg: string)
    requires '.' !in pkg
    ensures Title(ModulePath(dirs + [pkg, InitFile])) == Title(pkg)
  {
    var parts := dirs + [pkg, InitFile];
    assert parts[..|parts| - 1] == dirs + [pkg] && parts[|parts| - 1] == InitFile;
    if dirs != [] {
      JoinSnoc(dirs, pkg, ".");
      TitleOfQualified(Join(dirs, "."), pkg);
    }
  }

  /** A concrete module path: "arlogi/factory.py" and "arlogi/__init__.py". */
  lemma ModulePathExamples()
    ensures ModulePath(["arlogi", "factory.py"]) == "arlogi.factory"
    ensures ModulePath(["arlogi", InitFile]) == "arlogi"
    ensures ModulePath([InitFile]) == "."
  {
    assert RFind("factory.py", '.') == 7;
    assert Stem("factory.py") == "factory";
    assert ["arlogi", "factory.py"][..1] + [Stem("factory.py")] == ["arlogi", "factory"];
    assert Join(["arlogi", "factory"], ".") == "arlogi" + "." + Join(["factory"], ".");
    assert ["arlogi", InitFile][..1] == ["arlogi"];
  }

  // ---- pages ----

  datatype SourceFile = SourceFile(parts: seq<string>, content: string)

  /** A generated page: its path relative to the docs directory and its text. */
  datatype Page = Page(navItem: seq<string>, text: string)

  const ReferenceDir := "reference"

  /** The page for a source file, if it gets one: not skipped and with something to document. */
  function PageFor(f: SourceFile): (r: Option<Page>)
    requires |f.parts| > 0
    ensures r.Some? <==>
      && !Skipped(f.parts)
      && (ExtractClassesAndFunctions(f.content).0 != [] || ExtractClassesAndFunctions(f.content).1 != [])
    ensures r.Some? ==>
      && r.value.text == MarkdownText(ModulePath(f.parts))
      && r.value.navItem == [ReferenceDir] + f.parts[..|f.parts| - 1] + [MarkdownName(f.parts[|f.parts| - 1])]
  {
    if Skipped(f.parts) then None
    else
      var (classes, functions) := ExtractClassesAndFunctions(f.content);
      if classes == [] && functions == [] then None
      else Some(Page([ReferenceDir] + f.parts[..|f.parts| - 1] + [MarkdownName(f.parts[|f.parts| - 1])],
                     MarkdownText(ModulePath(f.parts))))
  }

  /** The pages for the files in order. */
  function Pages(files: seq<SourceFile>): seq<Page>
    requires forall i :: 0 <= i < |files| ==> |files[i].parts| > 0
  {
    if files == [] then []
    else
      var last := files[|files| - 1];
      Pages(files[..|files| - 1]) + (match PageFor(last) case Some(p) => [p] case None => [])
  }

  /** Every page comes from a file that is neither skipped nor empty of names. */
  lemma {:induction false} PagesFromFiles(files: seq<SourceFile>)
    requires forall i :: 0 <= i < |files| ==> |files[i].parts| > 0
    ensures |Pages(files)| <= |files|
    ensures forall p | p in Pages(files) :: exists i :: 0 <= i < |files| && PageFor(files[i]) == Some(p)
  {
    if files != [] {
      var init := files[..|files| - 1];
      PagesFromFiles(init);
      forall p | p in Pages(files) ensures exists i :: 0 <= i < |files| && PageFor(files[i]) == Some(p) {
        if p in Pages(init) {
          var i :| 0 <= i < |init| && PageFor(init[i]) == Some(p);
          assert files[i] == init[i];
        } else {
          assert PageFor(files[|files| - 1]) == Some(p);
        }
      }
    }
  }

  /**
   * The loop of `main`: for each source file, skip it or extract its names,
   * and write a page for it when there are any. Returns the pages written,
   * in order; their paths are the navigation items.
   */
  method GenerateReference(files: seq<SourceFile>) returns (pages: seq<Page>)
    requires forall i :: 0 <= i < |files| ==> |files[i].parts| > 0
    ensures pages == Pages(files)
  {
    pages := [];
    for i := 0 to |files|
      invariant pages == Pages(files[..i])
    {
      var page := PageFor(files[i]);
      if page.Some? {
        pages := pages + [page.value];
      }
      assert files[..i + 1][..i] == files[..i];
    }
    assert files[..|files|] == files;
  }

  // ---- navigation tree ----

  /** A level of the menu (a dictionary, keys in insertion order) or a page path. */
  datatype Nav = Dir(entries: seq<Entry>) | Leaf(path: string)
  datatype Entry = Entry(key: string, node: Nav)

  /** The menu key of a directory part: "_" to " ", capitalised. */
  function DirKey(part: string): string {
    Capitalize(ReplaceChar(part, '_', ' '))
  }

  /** The menu key of a page: every ".md" removed, "_" to " ", capitalised. */
  function LeafKey(name: string): string {
    Capitalize(ReplaceChar(Replace(name, ".md", ""), '_', ' '))
  }

  /** The keys of a level are distinct, as a dictionary's are. */
  predicate UniqueKeys(es: seq<Entry>) {
    forall i, j :: 0 <= i < j < |es| ==> es[i].key != es[j].key
  }

  /** `d.get(key)`. */
  function Get(es: seq<Entry>, key: string): (r: Option<Nav>)
    ensures r.Some? <==> exists i :: 0 <= i < |es| && es[i].key == key
    ensures r.Some? ==> Entry(key, r.value) in es
  {
    if es == [] then None
    else if es[0].key == key then Some(es[0].node)
    else
      var r := Get(es[1..], key);
      assert forall i :: 1 <= i < |es| ==> es[i] == es[1..][i - 1];
      r
  }

  /** `d[key] = node`: an existing key keeps its position, a new one goes last. */
  function Put(es: seq<Entry>, key: string, node: Nav): (r: seq<Entry>)
    requires UniqueKeys(es)
    ensures UniqueKeys(r)
    ensures forall j :: 0 <= j < |r| ==> r[j].key == key || Get(es, r[j].key).Some?
    ensures Get(r, key) == Some(node)
    ensures forall k | k != key :: Get(r, k) == Get(es, k)
  {
    if es == [] then [Entry(key, node)]
    else if es[0].key == key then
      assert forall k | k != key :: Get(es, k) == Get(es[1..], k);
      [Entry(key, node)] + es[1..]
    else
      var rest := Put(es[1..], key, node);
      var r := [es[0]] + rest;
      assert forall k :: Get(r, k) == if k == es[0].key then Some(es[0].node) else Get(rest, k);
      assert Get(es[1..], es[0].key).None? by {
        forall i | 0 <= i < |es[1..]| ensures es[1..][i].key != es[0].key {
          assert es[1..][i] == es[i + 1];
        }
      }
      r
  }

  /** Every level of the tree has distinct keys. */
  predicate WellKeyed(n: Nav) {
    match n
    case Leaf(_) => true
    case Dir(es) => UniqueKeys(es) && forall i :: 0 <= i < |es| ==> WellKeyed(es[i].node)
  }

  /** The node reached by following `path` through the keys. */
  function Lookup(n: Nav, path: seq<string>): Option<Nav>
    decreases |path|
  {
    if path == [] then Some(n)
    else match n
      case Leaf(_) => None
      case Dir(es) =>
        match Get(es, path[0])
        case None => None
        case Some(child) => Lookup(child, path[1..])
  }

  /** With distinct keys, looking up an entry's key finds that entry. */
  lemma {:induction false} GetAt(es: seq<Entry>, i: nat)
    requires UniqueKeys(es) && i < |es|
    ensures Get(es, es[i].key) == Some(es[i].node)
  {
    if i > 0 {
      assert es[0].key != es[i].key;
      assert es[1..][i - 1] == es[i];
      GetAt(es[1..], i - 1);
    }
  }

  /** Storing a well-keyed node in a well-keyed level keeps the level well keyed. */
  lemma PutWellKeyed(es: seq<Entry>, key: string, node: Nav)
    requires WellKeyed(Dir(es)) && WellKeyed(node)
    ensures WellKeyed(Dir(Put(es, key, node)))
  {
    var es' := Put(es, key, node);
    forall i | 0 <= i < |es'| ensures WellKeyed(es'[i].node) {
      GetAt(es', i);
      if es'[i].key != key {
        var j :| 0 <= j < |es| && es[j] == Entry(es'[i].key, es'[i].node);
      }
    }
  }

  /** The level under `key`, or a new empty one (`if name not in current: current[name] = {}`). */
  function ChildFor(es: seq<Entry>, key: string): (r: Nav)
    requires WellKeyed(Dir(es))
    ensures WellKeyed(r)
    ensures Get(es, key).None? ==> r == Dir([])
    ensures Get(es, key).Some? ==> r == Get(es, key).value
  {
    match Get(es, key) case Some(c) => c case None => Dir([])
  }

  /**
   * One step of `create_nav_menu_yaml`: walk the directory keys, creating
   * missing levels, then store the page under its key, replacing whatever
   * was there. `None` where Python raises `TypeError`: the walk reaches a
   * page path where it needs a level.
   */
  function InsertAt(n: Nav, dirs: seq<string>, leafKey: string, value: string): (r: Option<Nav>)
    requires WellKeyed(n)
    ensures r.Some? ==> r.value.Dir? && WellKeyed(r.value)
    decreases |dirs|
  {
    match n
    case Leaf(_) => None
    case Dir(es) =>
      if dirs == [] then
        PutWellKeyed(es, leafKey, Leaf(value));
        Some(Dir(Put(es, leafKey, Leaf(value))))
      else
        var child := ChildFor(es, dirs[0]);
        match InsertAt(child, dirs[1..], leafKey, value)
        case None => None
        case Some(c) =>
          PutWellKeyed(es, dirs[0], c);
          Some(Dir(Put(es, dirs[0], c)))
  }

  /** After a successful insertion the page is found at its key path. */
  lemma {:induction false} InsertFound(n: Nav, dirs: seq<string>, leafKey: string, value: string)
    requires WellKeyed(n)
    requires InsertAt(n, dirs, leafKey, value).Some?
    ensures Lookup(InsertAt(n, dirs, leafKey, value).value, dirs + [leafKey]) == Some(Leaf(value))
    decreases |dirs|
  {
    var t := InsertAt(n, dirs, leafKey, value).value;
    if dirs == [] {
      assert [leafKey][1..] == [];
    } else {
      var child := ChildFor(n.entries, dirs[0]);
      InsertFound(child, dirs[1..], leafKey, value);
      assert (dirs + [leafKey])[1..] == dirs[1..] + [leafKey];
    }
  }

  /** The walk is blocked when the node at a prefix of the key path is a page. */
  predicate BlockedAt(n: Nav, path: seq<string>) {
    Lookup(n, path).Some? && Lookup(n, path).value.Leaf?
  }

  /** A freshly created level never blocks an insertion. */
  lemma {:induction false} FreshLevelAccepts(dirs: seq<string>, leafKey: string, value: string)
    ensures InsertAt(Dir([]), dirs, leafKey, value).Some?
    decreases |dirs|
  {
    if dirs != [] {
      FreshLevelAccepts(dirs[1..], leafKey, value);
    }
  }

  /**
   * The insertion fails (Python's `TypeError`) exactly when the walk meets a
   * page where it needs a level.
   */
  lemma {:induction false} InsertFailsIffBlocked(n: Nav, dirs: seq<string>, leafKey: string, value: string)
    requires WellKeyed(n)
    ensures InsertAt(n, dirs, leafKey, value).None? <==>
      exists i :: 0 <= i <= |dirs| && BlockedAt(n, dirs[..i])
    decreases |dirs|
  {
    assert dirs[..0] == [];
    if n.Dir? && dirs != [] {
      match Get(n.entries, dirs[0])
      case None =>
        FreshLevelAccepts(dirs[1..], leafKey, value);
        forall i | 1 <= i <= |dirs| ensures !BlockedAt(n, dirs[..i]) {
          assert dirs[..i][0] == dirs[0];
        }
      case Some(c) =>
        InsertFailsIffBlocked(c, dirs[1..], leafKey, value);
        forall i | 1 <= i <= |dirs| ensures BlockedAt(n, dirs[..i]) == BlockedAt(c, dirs[1..][..i - 1]) {
          assert dirs[..i][0] == dirs[0];
          assert dirs[..i][1..] == dirs[1..][..i - 1];
        }
        if InsertAt(n, dirs, leafKey, value).None? {
          var j :| 0 <= j <= |dirs[1..]| && BlockedAt(c, dirs[1..][..j]);
          assert BlockedAt(n, dirs[..j + 1]);
        }
    }
  }

  /** `p` and `q` agree up to some position of both and differ there. */
  predicate Diverge(p: seq<string>, q: seq<string>) {
    exists j :: 0 <= j < |p| && j < |q| && p[..j] == q[..j] && p[j] != q[j]
  }

  /** Looking up through a replaced key reaches the new node. */
  lemma LookupPutSame(es: seq<Entry>, key: string, node: Nav, p: seq<string>)
    requires UniqueKeys(es) && p != [] && p[0] == key
    ensures Lookup(Dir(Put(es, key, node)), p) == Lookup(node, p[1..])
  {
  }

  /** Looking up through any other key sees the level as it was. */
  lemma LookupPutOther(es: seq<Entry>, key: string, node: Nav, p: seq<string>)
    requires UniqueKeys(es) && p != [] && p[0] != key
    ensures Lookup(Dir(Put(es, key, node)), p) == Lookup(Dir(es), p)
  {
    assert Get(Put(es, key, node), p[0]) == Get(es, p[0]);
  }

  /** An insertion changes nothing on a key path that branches off its own. */
  lemma {:induction false} InsertKeepsOthers(n: Nav, dirs: seq<string>, leafKey: string, value: string, p: seq<string>)
    requires WellKeyed(n)
    requires InsertAt(n, dirs, leafKey, value).Some?
    requires Diverge(p, dirs + [leafKey])
    ensures Lookup(InsertAt(n, dirs, leafKey, value).value, p) == Lookup(n, p)
    decreases |dirs|, 1
  {
    var q := dirs + [leafKey];
    var j :| 0 <= j < |p| && j < |q| && p[..j] == q[..j] && p[j] != q[j];
    var es := n.entries;
    if dirs == [] {
      assert j == 0;
      LookupPutOther(es, leafKey, Leaf(value), p);
    } else {
      var child := ChildFor(es, dirs[0]);
      var c' := InsertAt(child, dirs[1..], leafKey, value).value;
      assert InsertAt(n, dirs, leafKey, value).value == Dir(Put(es, dirs[0], c'));
      if j == 0 {
        LookupPutOther(es, dirs[0], c', p);
      } else {
        KeepsOthersBelow(n, dirs, leafKey, value, p, j);
      }
    }
  }

  lemma DivergeTail(p: seq<string>, q: seq<string>, j: nat)
    requires 0 < j < |p| && j < |q| && p[..j] == q[..j] && p[j] != q[j]
    ensures Diverge(p[1..], q[1..])
  {
    assert p[1..][..j - 1] == p[..j][1..] && q[1..][..j - 1] == q[..j][1..];
    assert p[1..][j - 1] == p[j] && q[1..][j - 1] == q[j];
  }

  /** The step of `InsertKeepsOthers` where `p` follows the insertion into the child level. */
  lemma {:induction false} KeepsOthersBelow(n: Nav, dirs: seq<string>, leafKey: string, value: string, p: seq<string>, j: nat)
    requires WellKeyed(n) && n.Dir? && dirs != []
    requires InsertAt(n, dirs, leafKey, value).Some?
    requires 0 < j < |p| && j <= |dirs| && p[..j] == dirs[..j] && p[j] != (dirs + [leafKey])[j]
    ensures Lookup(InsertAt(n, dirs, leafKey, value).value, p) == Lookup(n, p)
    decreases |dirs|, 0
  {
    var es := n.entries;
    var child := ChildFor(es, dirs[0]);
    InsertAtStep(n, dirs, leafKey, value);
    var c' := InsertAt(child, dirs[1..], leafKey, value).value;
    DivergeInChild(p, dirs, leafKey, j);
    LookupPutSame(es, dirs[0], c', p);
    InsertKeepsOthers(child, dirs[1..], leafKey, value, p[1..]);
    LookupChild(es, p);
  }

  /** Past a shared first key, the paths still branch off one another. */
  lemma DivergeInChild(p: seq<string>, dirs: seq<string>, leafKey: string, j: nat)
    requires dirs != []
    requires 0 < j < |p| && j <= |dirs| && p[..j] == dirs[..j] && p[j] != (dirs + [leafKey])[j]
    ensures |p| > 1 && p[0] == dirs[0]
    ensures Diverge(p[1..], dirs[1..] + [leafKey])
  {
    var q := dirs + [leafKey];
    assert p[0] == p[..j][0] && dirs[0] == dirs[..j][0];
    assert q[1..] == dirs[1..] + [leafKey];
    assert q[..j] == dirs[..j];
    DivergeTail(p, q, j);
  }

  /** An insertion below the top level stores the updated child level under its key. */
  lemma InsertAtStep(n: Nav, dirs: seq<string>, leafKey: string, value: string)
    requires WellKeyed(n) && n.Dir? && dirs != []
    requires InsertAt(n, dirs, leafKey, value).Some?
    ensures InsertAt(ChildFor(n.entries, dirs[0]), dirs[1..], leafKey, value).Some?
    ensures InsertAt(n, dirs, leafKey, value).value
      == Dir(Put(n.entries, dirs[0], InsertAt(ChildFor(n.entries, dirs[0]), dirs[1..], leafKey, value).value))
  {
  }

  /** A lookup passes through to the child level, a missing one looking like an empty level. */
  lemma LookupChild(es: seq<Entry>, p: seq<string>)
    requires WellKeyed(Dir(es)) && |p| > 1
    ensures Lookup(ChildFor(es, p[0]), p[1..]) == Lookup(Dir(es), p)
  {
  }

  /** The key path of a navigation item: directory keys, then the page key. */
  function NavPath(item: seq<string>): (r: seq<string>)
    requires item != []
    ensures |r| == |item|
  {
    DirKeys(item[..|item| - 1]) + [LeafKey(item[|item| - 1])]
  }

  function DirKeys(parts: seq<string>): (r: seq<string>)
    ensures |r| == |parts| && forall i :: 0 <= i < |parts| ==> r[i] == DirKey(parts[i])
  {
    if parts == [] then [] else [DirKey(parts[0])] + DirKeys(parts[1..])
  }

  /**
   * One item of `create_nav_menu_yaml`, stored under its key path with its
   * path string as value. `None` for an item with no parts (`IndexError`)
   * or one whose walk is blocked (`TypeError`).
   */
  function AddItem(t: Nav, item: seq<string>): (r: Option<Nav>)
    requires WellKeyed(t)
    ensures r.Some? ==> r.value.Dir? && WellKeyed(r.value)
    ensures item == [] ==> r.None?
  {
    if item == [] then None
    else InsertAt(t, DirKeys(item[..|item| - 1]), LeafKey(item[|item| - 1]), Join(item, "/"))
  }

  /** The tree after adding the items in order, starting from an empty one. */
  function NavTree(items: seq<seq<string>>): (r: Option<Nav>)
    ensures r.Some? ==> r.value.Dir? && WellKeyed(r.value)
  {
    if items == [] then Some(Dir([]))
    else match NavTree(items[..|items| - 1])
      case None => None
      case Some(t) => AddItem(t, items[|items| - 1])
  }

  /** An added item is found at its key path, with its path as value. */
  lemma AddItemFound(t: Nav, item: seq<string>)
    requires WellKeyed(t) && item != [] && AddItem(t, item).Some?
    ensures Lookup(AddItem(t, item).value, NavPath(item)) == Some(Leaf(Join(item, "/")))
  {
    InsertFound(t, DirKeys(item[..|item| - 1]), LeafKey(item[|item| - 1]), Join(item, "/"));
  }

  /** Adding an item changes nothing on a key path that branches off its own. */
  lemma AddItemKeepsOthers(t: Nav, item: seq<string>, p: seq<string>)
    requires WellKeyed(t) && item != [] && AddItem(t, item).Some?
    requires Diverge(p, NavPath(item))
    ensures Lookup(AddItem(t, item).value, p) == Lookup(t, p)
  {
    InsertKeepsOthers(t, DirKeys(item[..|item| - 1]), LeafKey(item[|item| - 1]), Join(item, "/"), p);
  }

  /** The item added last is found at its key path, with its path as value. */
  lemma LastItemFound(items: seq<seq<string>>)
    requires items != [] && NavTree(items).Some?
    ensures items[|items| - 1] != []
    ensures Lookup(NavTree(items).value, NavPath(items[|items| - 1])) == Some(Leaf(Join(items[|items| - 1], "/")))
  {
    AddItemFound(NavTree(items[..|items| - 1]).value, items[|items| - 1]);
  }

  /**
   * An item stays in the tree as long as every later item's key path
   * branches off its own.
   */
  lemma {:induction false} ItemSurvives(items: seq<seq<string>>, i: nat)
    requires i < |items| && items[i] != [] && NavTree(items).Some?
    requires DivergesFromLater(items, i)
    ensures Lookup(NavTree(items).value, NavPath(items[i])) == Some(Leaf(Join(items[i], "/")))
  {
    if i == |items| - 1 {
      LastItemFound(items);
    } else {
      var init := items[..|items| - 1];
      var item := items[|items| - 1];
      assert NavTree(init).Some? && NavTree(items) == AddItem(NavTree(init).value, item);
      assert init[i] == items[i];
      assert DivergesFromLater(init, i) by {
        forall k | i < k < |init| ensures init[k] != [] && Diverge(NavPath(init[i]), NavPath(init[k])) {
          assert init[k] == items[k];
        }
      }
      ItemSurvives(init, i);
      assert item != [] && Diverge(NavPath(items[i]), NavPath(item));
      AddItemKeepsOthers(NavTree(init).value, item, NavPath(items[i]));
    }
  }

  /** Every item after the `i`th is a page whose key path branches off the `i`th one's. */
  predicate DivergesFromLater(items: seq<seq<string>>, i: nat)
    requires i < |items| && items[i] != []
  {
    forall k :: i < k < |items| ==> items[k] != [] && Diverge(NavPath(items[i]), NavPath(items[k]))
  }

  /** The loop of `create_nav_menu_yaml` that builds the tree. */
  method BuildNavTree(items: seq<seq<string>>) returns (r: Option<Nav>)
    ensures r == NavTree(items)
  {
    r := Some(Dir([]));
    for i := 0 to |items|
      invariant r == NavTree(items[..i])
    {
      assert items[..i + 1][..i] == items[..i];
      if r.None? {
        continue;
      }
      r := AddItem(r.value, items[i]);
    }
    assert items[..|items|] == items;
  }

  // ---- rendering the menu ----

  /** `'  ' * level`. */
  function Indent(level: nat): (r: string)
    ensures |r| == 2 * level
    ensures forall i :: 0 <= i < |r| ==> r[i] == ' '
  {
    if level == 0 then "" else "  " + Indent(level - 1)
  }

  /** Items of a dictionary compare by key; keys are distinct, so values never decide. */
  function EntryLt(a: Entry, b: Entry): bool {
    StrLt(a.key, b.key)
  }

  /** `sorted(d.items())`. */
  function SortEntries(es: seq<Entry>): (r: seq<Entry>)
    ensures multiset(r) == multiset(es)
  {
    Sort(es, EntryLt)
  }

  /** The entries of a level come out in key order, every one of them exactly once. */
  lemma SortedEntries(es: seq<Entry>)
    ensures SortedBy(SortEntries(es), EntryLt)
    ensures multiset(SortEntries(es)) == multiset(es)
  {
    StrLtStrictTotal();
    forall a, b, c | a in es && b in es && c in es && EntryLt(a, c)
      ensures EntryLt(a, b) || EntryLt(b, c)
    {
      if !EntryLt(a, b) && a.key != b.key {
        assert EntryLt(b, a);
      }
    }
    SortSorted(es, EntryLt);
  }

  /**
   * `_format_nav`: for each item in key order, a level becomes `- Key:`
   * followed by its own lines one step deeper, a page `- Key: path`.
   */
  function FormatNavSpec(n: Nav, indent: nat): seq<string>
    decreases n, 1
  {
    match n
    case Leaf(_) => []
    case Dir(es) =>
      var sorted := SortEntries(es);
      SortedMembers(es);
      FormatFrom(sorted, 0, indent, n)
  }

  /** Sorting keeps the entries of the level. */
  lemma SortedMembers(es: seq<Entry>)
    ensures forall e | e in SortEntries(es) :: e in es
  {
    forall e | e in SortEntries(es) ensures e in es {
      assert e in multiset(SortEntries(es));
    }
  }

  /** The lines of entries `k` onwards of `es`, all of them entries of `parent`. */
  function FormatFrom(es: seq<Entry>, k: nat, indent: nat, parent: Nav): seq<string>
    requires parent.Dir? && k <= |es| && forall e | e in es :: e in parent.entries
    decreases parent, 0, |es| - k
  {
    if k == |es| then []
    else EntryLines(es[k], indent, parent) + FormatFrom(es, k + 1, indent, parent)
  }

  /** The lines of one entry. */
  function EntryLines(e: Entry, indent: nat, parent: Nav): seq<string>
    requires parent.Dir? && e in parent.entries
    decreases parent, 0, 0
  {
    match e.node
    case Dir(_) => [Indent(indent) + "- " + e.key + ":"] + FormatNavSpec(e.node, indent + 1)
    case Leaf(path) => [Indent(indent) + "- " + e.key + ": " + path]
  }

  /** `_format_nav` as the script runs it: a loop over the sorted items, recursing into levels. */
  method FormatNav(n: Nav, indent: nat) returns (lines: seq<string>)
    requires n.Dir?
    ensures lines == FormatNavSpec(n, indent)
    decreases n, 1
  {
    var es := SortEntries(n.entries);
    SortedMembers(n.entries);
    lines := [];
    for i := 0 to |es|
      invariant lines + FormatFrom(es, i, indent, n) == FormatFrom(es, 0, indent, n)
    {
      var block := FormatEntry(es[i], indent, n);
      lines := lines + block;
    }
  }

  /** One pass of the loop of `_format_nav`. */
  method FormatEntry(e: Entry, indent: nat, parent: Nav) returns (block: seq<string>)
    requires parent.Dir? && e in parent.entries
    ensures block == EntryLines(e, indent, parent)
    decreases parent, 0
  {
    match e.node {
      case Dir(_) =>
        var sub := FormatNav(e.node, indent + 1);
        block := [Indent(indent) + "- " + e.key + ":"] + sub;
      case Leaf(path) =>
        block := [Indent(indent) + "- " + e.key + ": " + path];
    }
  }

  /** The number of entries in the tree, at every depth. */
  function Count(n: Nav): nat
    decreases n, 1
  {
    match n
    case Leaf(_) => 0
    case Dir(es) => CountEntries(es, n)
  }

  function CountEntries(es: seq<Entry>, parent: Nav): nat
    requires parent.Dir? && forall e | e in es :: e in parent.entries
    decreases parent, 0, |es|
  {
    if es == [] then 0
    else
      assert es[0] in parent.entries;
      1 + Count(es[0].node) + CountEntries(es[1..], parent)
  }

  lemma {:induction false} CountInsert(x: Entry, s: seq<Entry>, parent: Nav)
    requires parent.Dir? && x in parent.entries && forall e | e in s :: e in parent.entries
    ensures forall e | e in Insert(x, s, EntryLt) :: e in parent.entries
    ensures CountEntries(Insert(x, s, EntryLt), parent) == 1 + Count(x.node) + CountEntries(s, parent)
  {
    var r := Insert(x, s, EntryLt);
    forall e | e in r ensures e in parent.entries {
      assert e in multiset(r);
    }
    if s != [] && EntryLt(s[0], x) {
      CountInsert(x, s[1..], parent);
      assert r[1..] == Insert(x, s[1..], EntryLt);
    }
  }

  lemma {:induction false} CountSort(s: seq<Entry>, parent: Nav)
    requires parent.Dir? && forall e | e in s :: e in parent.entries
    ensures forall e | e in SortEntries(s) :: e in parent.entries
    ensures CountEntries(SortEntries(s), parent) == CountEntries(s, parent)
  {
    var r := SortEntries(s);
    forall e | e in r ensures e in parent.entries {
      assert e in multiset(r);
    }
    if s != [] {
      CountSort(s[1..], parent);
      CountInsert(s[0], SortEntries(s[1..]), parent);
    }
  }

  /** The menu has one line per entry of the tree: every level and every page. */
  lemma {:induction false} LinesPerEntry(n: Nav, indent: nat)
    ensures |FormatNavSpec(n, indent)| == Count(n)
    decreases n, 1
  {
    if n.Dir? {
      CountSort(n.entries, n);
      SortedMembers(n.entries);
      EntriesLinesPerEntry(SortEntries(n.entries), 0, indent, n);
      assert SortEntries(n.entries)[0..] == SortEntries(n.entries);
    }
  }

  lemma {:induction false} EntriesLinesPerEntry(es: seq<Entry>, k: nat, indent: nat, parent: Nav)
    requires parent.Dir? && k <= |es| && forall e | e in es :: e in parent.entries
    ensures |FormatFrom(es, k, indent, parent)| == CountEntries(es[k..], parent)
    decreases parent, 0, |es| - k
  {
    if k < |es| {
      assert es[k] in parent.entries;
      LinesPerEntry(es[k].node, indent + 1);
      EntriesLinesPerEntry(es, k + 1, indent, parent);
      assert es[k..][0] == es[k] && es[k..][1..] == es[k + 1..];
    }
  }

  /** Every line of a level's block is indented at least as deep as the level. */
  lemma {:induction false} LinesIndented(n: Nav, indent: nat)
    ensures forall l | l in FormatNavSpec(n, indent) :: StartsWith(l, Indent(indent))
    decreases n, 1
  {
    if n.Dir? {
      SortedMembers(n.entries);
      EntriesIndented(SortEntries(n.entries), 0, indent, n);
    }
  }

  lemma {:induction false} EntriesIndented(es: seq<Entry>, k: nat, indent: nat, parent: Nav)
    requires parent.Dir? && k <= |es| && forall e | e in es :: e in parent.entries
    ensures forall l | l in FormatFrom(es, k, indent, parent) :: StartsWith(l, Indent(indent))
    decreases parent, 0, |es| - k
  {
    if k < |es| {
      var e := es[k];
      assert e in parent.entries;
      EntriesIndented(es, k + 1, indent, parent);
      var head := Indent(indent) + "- " + e.key;
      if e.node.Leaf? {
        assert (head + ": " + e.node.path)[..|Indent(indent)|] == Indent(indent);
      } else {
        assert (head + ":")[..|Indent(indent)|] == Indent(indent);
        LinesIndented(e.node, indent + 1);
        forall l | l in FormatNavSpec(e.node, indent + 1) ensures StartsWith(l, Indent(indent)) {
          assert l[..|Indent(indent)|] == Indent(indent);
        }
      }
    }
  }

  /**
   * `create_nav_menu_yaml` over the sorted items: the menu lines, or `None`
   * where building the tree raises.
   */
  function NavMenu(items: seq<seq<string>>): (r: Option<seq<string>>)
    ensures r.Some? <==> NavTree(Sort(items, PartsLt)).Some?
    ensures r.Some? ==> |r.value| == Count(NavTree(Sort(items, PartsLt)).value)
    ensures items == [] ==> r == Some([])
  {
    match NavTree(Sort(items, PartsLt))
    case None => None
    case Some(t) =>
      LinesPerEntry(t, 0);
      Some(FormatNavSpec(t, 0))
  }

  /** `create_nav_menu_yaml(sorted(nav_items))`: build the tree, then render it from the top. */
  method CreateNavMenu(items: seq<seq<string>>) returns (lines: Option<seq<string>>)
    ensures lines == NavMenu(items)
  {
    var tree := BuildNavTree(Sort(items, PartsLt));
    if tree.None? {
      return None;
    }
    var rendered := FormatNav(tree.value, 0);
    return Some(rendered);
  }

  // ---- the generator as a whole ----

  /** The navigation items of the pages, in order. */
  function NavItems(pages: seq<Page>): (r: seq<seq<string>>)
    ensures |r| == |pages| && forall i :: 0 <= i < |pages| ==> r[i] == pages[i].navItem
  {
    if pages == [] then [] else NavItems(pages[..|pages| - 1]) + [pages[|pages| - 1].navItem]
  }

  /** A navigation item lies under the reference directory and names a Markdown file. */
  predicate ItemShape(item: seq<string>) {
    && |item| >= 2 && item[0] == ReferenceDir
    && var last := item[|item| - 1]; |last| >= 3 && last[|last| - 3..] == ".md"
  }

  lemma PageItemShape(f: SourceFile)
    requires |f.parts| > 0 && PageFor(f).Some?
    ensures ItemShape(PageFor(f).value.navItem)
  {
    var name := MarkdownName(f.parts[|f.parts| - 1]);
    assert name[|name| - 3..] == ".md";
  }

  /** Every navigation item the generator produces has that shape. */
  lemma NavItemsShape(files: seq<SourceFile>)
    requires forall i :: 0 <= i < |files| ==> |files[i].parts| > 0
    ensures forall item | item in NavItems(Pages(files)) :: ItemShape(item)
  {
    PagesFromFiles(files);
    var pages := Pages(files);
    forall item | item in NavItems(pages) ensures ItemShape(item) {
      var k :| 0 <= k < |pages| && NavItems(pages)[k] == item;
      assert pages[k] in pages;
      var i :| 0 <= i < |files| && PageFor(files[i]) == Some(pages[k]);
      PageItemShape(files[i]);
    }
  }

  /**
   * `main`: the pages for the source files, then the menu over their
   * navigation items in sorted order (`None` where building it raises).
   */
  method GenerateDocs(files: seq<SourceFile>) returns (pages: seq<Page>, menu: Option<seq<string>>)
    requires forall i :: 0 <= i < |files| ==> |files[i].parts| > 0
    ensures pages == Pages(files)
    ensures menu == NavMenu(NavItems(pages))
  {
    pages := GenerateReference(files);
    var items: seq<seq<string>> := [];
    for i := 0 to |pages|
      invariant items == NavItems(pages[..i])
    {
      assert pages[..i + 1][..i] == pages[..i];
      items := items + [pages[i].navItem];
    }
    assert pages[..|pages|] == pages;
    menu := CreateNavMenu(items);
  }
}

=== FILE: sorting.dfy ===
/**
 * Python's ordering of strings and of lists (lexicographic, element by
 * element) and the `sorted` builtin, as an insertion sort over a strict weak
 * order.
 */
module Sorting {

  // ---- orders ----

  /** `lt` is irreflexive, transitive and total on distinct values. */
  ghost predicate StrictTotal<T(!new)>(lt: (T, T) -> bool) {
    && (forall x :: !lt(x, x))
    && (forall x, y, z :: lt(x, y) && lt(y, z) ==> lt(x, z))
    && (forall x, y :: x != y ==> lt(x, y) || lt(y, x))
  }

  /**
   * On the values of `s`, `lt` is asymmetric and negatively transitive: a
   * strict weak order, which is what `sorted` needs of `<`.
   */
  ghost predicate StrictWeakOn<T>(lt: (T, T) -> bool, s: seq<T>) {
    && (forall a, b | a in s && b in s :: lt(a, b) ==> !lt(b, a))
    && (forall a, b, c | a in s && b in s && c in s :: lt(a, c) ==> lt(a, b) || lt(b, c))
  }

  lemma StrictTotalIsStrictWeak<T(!new)>(lt: (T, T) -> bool, s: seq<T>)
    requires StrictTotal(lt)
    ensures StrictWeakOn(lt, s)
  {
    forall a, b, c | a in s && b in s && c in s && lt(a, c)
      ensures lt(a, b) || lt(b, c)
    {
      if !lt(a, b) && a != b {
        assert lt(b, a);
      }
    }
  }

  /**
   * Python's comparison of two sequences (str, list): the first position where
   * they differ decides, and a proper prefix is smaller.
   */
  function LexLt<T(==)>(a: seq<T>, b: seq<T>, lt: (T, T) -> bool): bool {
    if a == [] then b != []
    else if b == [] then false
    else if a[0] == b[0] then LexLt(a[1..], b[1..], lt)
    else lt(a[0], b[0])
  }

  lemma {:induction false} LexIrreflexive<T>(a: seq<T>, lt: (T, T) -> bool)
    ensures !LexLt(a, a, lt)
  {
    if a != [] {
      LexIrreflexive(a[1..], lt);
    }
  }

  lemma {:induction false} LexTransitive<T(!new)>(a: seq<T>, b: seq<T>, c: seq<T>, lt: (T, T) -> bool)
    requires StrictTotal(lt)
    requires LexLt(a, b, lt) && LexLt(b, c, lt)
    ensures LexLt(a, c, lt)
  {
    if a != [] && b != [] && c != [] && a[0] == b[0] && b[0] == c[0] {
      LexTransitive(a[1..], b[1..], c[1..], lt);
    }
  }

  lemma {:induction false} LexTotal<T(!new)>(a: seq<T>, b: seq<T>, lt: (T, T) -> bool)
    requires StrictTotal(lt)
    requires a != b
    ensures LexLt(a, b, lt) || LexLt(b, a, lt)
  {
    if a != [] && b != [] && a[0] == b[0] {
      assert a == [a[0]] + a[1..] && b == [b[0]] + b[1..];
      LexTotal(a[1..], b[1..], lt);
    }
  }

  function CharLt(x: char, y: char): bool { x < y }

  /** Python's `<` on `str`: code point by code point. */
  function StrLt(a: string, b: string): bool { LexLt(a, b, CharLt) }

  /** Python's `<` on a list of strings (the parts of a path). */
  function PartsLt(p: seq<string>, q: seq<string>): bool { LexLt(p, q, StrLt) }

  lemma StrLtStrictTotal()
    ensures StrictTotal(StrLt)
  {
    assert StrictTotal(CharLt);
    forall a: string ensures !StrLt(a, a) {
      LexIrreflexive(a, CharLt);
    }
    forall a: string, b: string, c: string | StrLt(a, b) && StrLt(b, c) ensures StrLt(a, c) {
      LexTransitive(a, b, c, CharLt);
    }
    forall a: string, b: string | a != b ensures StrLt(a, b) || StrLt(b, a) {
      LexTotal(a, b, CharLt);
    }
  }

  lemma PartsLtStrictTotal()
    ensures StrictTotal(PartsLt)
  {
    StrLtStrictTotal();
    forall p: seq<string> ensures !PartsLt(p, p) {
      LexIrreflexive(p, StrLt);
    }
    forall p: seq<string>, q: seq<string>, r: seq<string> | PartsLt(p, q) && PartsLt(q, r)
      ensures PartsLt(p, r)
    {
      LexTransitive(p, q, r, StrLt);
    }
    forall p: seq<string>, q: seq<string> | p != q ensures PartsLt(p, q) || PartsLt(q, p) {
      LexTotal(p, q, StrLt);
    }
  }

  // ---- sorting ----

  ghost predicate SortedBy<T>(s: seq<T>, lt: (T, T) -> bool) {
    forall i, j :: 0 <= i < j < |s| ==> !lt(s[j], s[i])
  }

  /** Places `x` before the first element that is not smaller than it. */
  function Insert<T>(x: T, s: seq<T>, lt: (T, T) -> bool): (r: seq<T>)
    ensures multiset(r) == multiset(s) + multiset{x}
  {
    if s == [] then [x]
    else
      assert s == [s[0]] + s[1..];
      if lt(s[0], x) then [s[0]] + Insert(x, s[1..], lt) else [x] + s
  }

  /** `sorted(s)` with `lt` as `<`. */
  function Sort<T>(s: seq<T>, lt: (T, T) -> bool): (r: seq<T>)
    ensures multiset(r) == multiset(s)
  {
    if s == [] then []
    else (assert s == [s[0]] + s[1..]; Insert(s[0], Sort(s[1..], lt), lt))
  }

  lemma {:induction false} InsertSorted<T>(x: T, s: seq<T>, lt: (T, T) -> bool)
    requires StrictWeakOn(lt, [x] + s)
    requires SortedBy(s, lt)
    ensures SortedBy(Insert(x, s, lt), lt)
    decreases |s|, 1
  {
    if s != [] {
      if lt(s[0], x) {
        InsertAfterHead(x, s, lt);
      } else {
        InsertAtFront(x, s, lt);
      }
    }
  }

  /** `x` goes first when the head is not smaller than it. */
  lemma InsertAtFront<T>(x: T, s: seq<T>, lt: (T, T) -> bool)
    requires StrictWeakOn(lt, [x] + s)
    requires SortedBy(s, lt)
    requires s != [] && !lt(s[0], x)
    ensures SortedBy(Insert(x, s, lt), lt)
  {
    var r := [x] + s;
    assert Insert(x, s, lt) == r;
    forall j | 0 < j < |r| ensures !lt(r[j], x) {
      assert r[j] == s[j - 1];
      assert s[0] in [x] + s && s[j - 1] in [x] + s && x in [x] + s;
      if j > 1 {
        assert !lt(s[j - 1], s[0]);
      }
    }
  }

  /** The head stays first when it is smaller than `x`; `x` goes into the tail. */
  lemma {:induction false} InsertAfterHead<T>(x: T, s: seq<T>, lt: (T, T) -> bool)
    requires StrictWeakOn(lt, [x] + s)
    requires SortedBy(s, lt)
    requires s != [] && lt(s[0], x)
    ensures SortedBy(Insert(x, s, lt), lt)
    decreases |s|, 0
  {
    assert StrictWeakOn(lt, [x] + s[1..]) by {
      forall y | y in [x] + s[1..] ensures y in [x] + s {
      }
    }
    InsertSorted(x, s[1..], lt);
    var t := Insert(x, s[1..], lt);
    InsertAboveHead(x, s, lt);
    ConsSorted(s[0], t, lt);
  }

  /** A sorted sequence stays sorted under a head that nothing in it is smaller than. */
  lemma ConsSorted<T>(h: T, t: seq<T>, lt: (T, T) -> bool)
    requires SortedBy(t, lt)
    requires forall y | y in t :: !lt(y, h)
    ensures SortedBy([h] + t, lt)
  {
    var r := [h] + t;
    forall i, j | 0 <= i < j < |r| ensures !lt(r[j], r[i]) {
      if i == 0 {
        assert r[j] == t[j - 1] && r[j] in t;
      } else {
        assert r[i] == t[i - 1] && r[j] == t[j - 1];
      }
    }
  }

  /** Nothing in the tail with `x` inserted is smaller than the head. */
  lemma InsertAboveHead<T>(x: T, s: seq<T>, lt: (T, T) -> bool)
    requires StrictWeakOn(lt, [x] + s)
    requires SortedBy(s, lt)
    requires s != [] && lt(s[0], x)
    ensures forall y | y in Insert(x, s[1..], lt) :: !lt(y, s[0])
  {
    var t := Insert(x, s[1..], lt);
    forall y | y in t ensures !lt(y, s[0]) {
      assert y in multiset(t);
      if y != x {
        assert y in s[1..];
        var j :| 0 <= j < |s[1..]| && s[1..][j] == y;
        assert s[j + 1] == y;
      } else {
        assert x in [x] + s && s[0] in [x] + s;
      }
    }
  }

  lemma {:induction false} SortSorted<T>(s: seq<T>, lt: (T, T) -> bool)
    requires StrictWeakOn(lt, s)
    ensures SortedBy(Sort(s, lt), lt)
  {
    if s != [] {
      assert StrictWeakOn(lt, s[1..]) by {
        forall y | y in s[1..] ensures y in s {
        }
      }
      SortSorted(s[1..], lt);
      var t := Sort(s[1..], lt);
      assert StrictWeakOn(lt, [s[0]] + t) by {
        forall y | y in [s[0]] + t ensures y in s {
          if y != s[0] {
            assert y in multiset(t);
            assert y in multiset(s[1..]);
          }
        }
      }
      InsertSorted(s[0], t, lt);
    }
  }
}

=== FILE: strings.dfy ===
/**
 * The parts of Python's `str` that the modelled code relies on: case mapping,
 * `capitalize`, `replace`, `startswith`, `join`, the whitespace set of
 * `str.isspace`, and the decimal parsing that `int(str)` performs.
 * Case mapping and digits are ASCII only.
 */
module Strings {
  import opened Wrappers

  predicate IsAsciiDigit(c: char) { '0' <= c <= '9' }

  predicate IsAsciiLetter(c: char) { ('a' <= c <= 'z') || ('A' <= c <= 'Z') }

  /** The word characters of a regular expression's `\w`, restricted to ASCII. */
  predicate IsWordChar(c: char) { IsAsciiLetter(c) || IsAsciiDigit(c) || c == '_' }

  /** The characters Python's `str.isspace` accepts (also `\s` in a `str` pattern). */
  predicate IsSpace(c: char) {
    || c == ' ' || c == '\t' || c == '\n' || c == '\r' || c == '\U{000B}' || c == '\U{000C}'
    || ('\U{001C}' <= c <= '\U{001F}') || c == '\U{0085}' || c == '\U{00A0}' || c == '\U{1680}'
    || ('\U{2000}' <= c <= '\U{200A}') || c == '\U{2028}' || c == '\U{2029}' || c == '\U{202F}'
    || c == '\U{205F}' || c == '\U{3000}'
  }

  function LowerChar(c: char): char {
    if 'A' <= c <= 'Z' then (c as int + 32) as char else c
  }

  function UpperChar(c: char): char {
    if 'a' <= c <= 'z' then (c as int - 32) as char else c
  }

  /** `str.lower`. */
  function Lower(s: string): (r: string)
    ensures |r| == |s|
    ensures forall i :: 0 <= i < |s| ==> r[i] == LowerChar(s[i])
  {
    seq(|s|, i requires 0 <= i < |s| => LowerChar(s[i]))
  }

  /** `str.upper`. */
  function Upper(s: string): (r: string)
    ensures |r| == |s|
    ensures forall i :: 0 <= i < |s| ==> r[i] == UpperChar(s[i])
  {
    seq(|s|, i requires 0 <= i < |s| => UpperChar(s[i]))
  }

  /** `str.capitalize`: first character upper case, the rest lower case. */
  function Capitalize(s: string): (r: string)
    ensures |r| == |s|
    ensures |s| > 0 ==> r[0] == UpperChar(s[0])
    ensures forall i :: 0 < i < |s| ==> r[i] == LowerChar(s[i])
  {
    if s == [] then [] else [UpperChar(s[0])] + Lower(s[1..])
  }

  predicate StartsWith(s: string, prefix: string) {
    |prefix| <= |s| && s[..|prefix|] == prefix
  }

  /** `str.replace` of one character by another. */
  function ReplaceChar(s: string, from: char, to: char): (r: string)
    ensures |r| == |s|
    ensures forall i :: 0 <= i < |s| ==> r[i] == if s[i] == from then to else s[i]
  {
    seq(|s|, i requires 0 <= i < |s| => if s[i] == from then to else s[i])
  }

  /** `str.replace(pat, rep)`: every non-overlapping occurrence, left to right. */
  function Replace(s: string, pat: string, rep: string): string
    requires pat != []
    decreases |s|
  {
    if |s| < |pat| then s
    else if s[..|pat|] == pat then rep + Replace(s[|pat|..], pat, rep)
    else [s[0]] + Replace(s[1..], pat, rep)
  }

  /** `sep.join(parts)`. */
  function Join(parts: seq<string>, sep: string): string {
    if parts == [] then []
    else if |parts| == 1 then parts[0]
    else parts[0] + sep + Join(parts[1..], sep)
  }

  /** `s.split(sep)` for a one-character separator. */
  function Split(s: string, sep: char): (r: seq<string>)
    ensures |r| >= 1
    decreases |s|
  {
    if s == [] then [[]]
    else
      var rest := Split(s[1..], sep);
      if s[0] == sep then [[]] + rest
      else [[s[0]] + rest[0]] + rest[1..]
  }

  /** A field without the separator, then the separator: the field splits off first. */
  lemma {:induction false} SplitPrefix(a: string, sep: char, rest: string)
    requires sep !in a
    ensures Split(a + [sep] + rest, sep) == [a] + Split(rest, sep)
    decreases |a|
  {
    var s := a + [sep] + rest;
    if a == [] {
      assert s[1..] == rest;
    } else {
      assert s[1..] == a[1..] + [sep] + rest;
      SplitPrefix(a[1..], sep, rest);
      assert s[0] == a[0] && a[0] != sep;
      assert [a[0]] + a[1..] == a;
    }
  }

  lemma {:induction false} SplitNoSep(a: string, sep: char)
    requires sep !in a
    ensures Split(a, sep) == [a]
    decreases |a|
  {
    if a != [] {
      SplitNoSep(a[1..], sep);
      assert a[0] != sep;
      assert [a[0]] + a[1..] == a;
    }
  }

  /** Splitting inverts joining when no part contains the separator. */
  lemma {:induction false} SplitJoin(parts: seq<string>, sep: char)
    requires |parts| >= 1
    requires forall i | 0 <= i < |parts| :: sep !in parts[i]
    ensures Split(Join(parts, [sep]), sep) == parts
    decreases |parts|
  {
    if |parts| == 1 {
      SplitNoSep(parts[0], sep);
    } else {
      SplitPrefix(parts[0], sep, Join(parts[1..], [sep]));
      SplitJoin(parts[1..], sep);
    }
  }

  lemma {:induction false} JoinSnoc(xs: seq<string>, y: string, sep: string)
    requires xs != []
    ensures Join(xs + [y], sep) == Join(xs, sep) + sep + y
  {
    if |xs| > 1 {
      assert (xs + [y])[1..] == xs[1..] + [y];
      JoinSnoc(xs[1..], y, sep);
    }
  }

  /**
   * A first line that brings its own separator, joined to the others with
   * the separator and ended by one, splits back into that line, an empty
   * field, the others and a final empty field.
   */
  lemma SplitJoinedLines(heading: string, tail: seq<string>, sep: char)
    requires tail != [] && sep !in heading && forall i | 0 <= i < |tail| :: sep !in tail[i]
    ensures Split(Join([heading + [sep]] + tail, [sep]) + [sep], sep) == [heading, []] + tail + [[]]
  {
    var lines := [heading + [sep]] + tail;
    var y := Join(tail, [sep]) + [sep];
    var x := [] + [sep] + y;
    assert |lines| >= 2 && lines[0] == heading + [sep] && lines[1..] == tail;
    assert Join(lines, [sep]) + [sep] == heading + [sep] + x;
    SplitPrefix(heading, sep, x);
    SplitPrefix([], sep, y);
    JoinSnoc(tail, [], [sep]);
    assert y == Join(tail + [[]], [sep]);
    assert forall i | 0 <= i < |tail + [[]]| :: sep !in (tail + [[]])[i];
    SplitJoin(tail + [[]], sep);
    assert [heading] + ([[]] + (tail + [[]])) == [heading, []] + tail + [[]];
  }

  /** Index of the last occurrence of `c` in `s`, or -1 (`str.rfind`). */
  function RFind(s: string, c: char): (r: int)
    ensures -1 <= r < |s|
    ensures r >= 0 ==> s[r] == c
    ensures forall i :: r < i < |s| ==> s[i] != c
  {
    if s == [] then -1
    else if s[|s| - 1] == c then |s| - 1
    else RFind(s[..|s| - 1], c)
  }

  /** `s.split(sep)[-1]` for a one-character separator. */
  function LastSegment(s: string, sep: char): (r: string)
    ensures sep !in r
    ensures r == s[RFind(s, sep) + 1..]
  {
    s[RFind(s, sep) + 1..]
  }

  // ---- decimal rendering and parsing ----

  function DigitChar(d: nat): char
    requires d < 10
  {
    ('0' as int + d) as char
  }

  /** `str(n)` for a natural number. */
  function NatToString(n: nat): (r: string)
    ensures |r| > 0
    ensures forall i :: 0 <= i < |r| ==> IsAsciiDigit(r[i])
  {
    if n < 10 then [DigitChar(n)] else NatToString(n / 10) + [DigitChar(n % 10)]
  }

  /** `str(i)` for an integer. */
  function IntToString(i: int): string {
    if i < 0 then "-" + NatToString(-i) else NatToString(i)
  }

  /**
   * The whitespace `int()` skips around a number: among ASCII characters
   * only tab, line feed, vertical tab, form feed, carriage return and space
   * (so not U+001C to U+001F), and every other `str.isspace` character.
   */
  predicate IsIntSpace(c: char) {
    if c as int < 0x80 then c == ' ' || ('\t' <= c <= '\r') else IsSpace(c)
  }

  /** Leading and trailing `int()` whitespace removed. */
  function IntStrip(s: string): (r: string)
    ensures |r| <= |s|
    ensures |r| > 0 ==> !IsIntSpace(r[0]) && !IsIntSpace(r[|r| - 1])
    decreases |s|
  {
    if |s| > 0 && IsIntSpace(s[0]) then IntStrip(s[1..])
    else if |s| > 0 && IsIntSpace(s[|s| - 1]) then IntStrip(s[..|s| - 1])
    else s
  }

  /**
   * A base-10 digit string as `int()` accepts it: digits, with single
   * underscores allowed only between two digits.
   */
  predicate ValidDigits(d: string) {
    && |d| > 0
    && (forall i :: 0 <= i < |d| ==> IsAsciiDigit(d[i]) || d[i] == '_')
    && (forall i :: 0 <= i < |d| && d[i] == '_' ==>
          0 < i < |d| - 1 && IsAsciiDigit(d[i - 1]) && IsAsciiDigit(d[i + 1]))
  }

  /** The number a digit string denotes, underscores ignored. */
  function DigitsValue(d: string): nat
    decreases |d|
  {
    if d == [] then 0
    else if IsAsciiDigit(d[|d| - 1]) then 10 * DigitsValue(d[..|d| - 1]) + (d[|d| - 1] as int - '0' as int)
    else DigitsValue(d[..|d| - 1])
  }

  /**
   * `int(s)` for a string: `None` where Python raises `ValueError`. Only
   * surrounding whitespace, one sign and a valid digit string are accepted.
   */
  function ParseInt(s: string): (r: Option<int>)
    ensures IntStrip(s) == [] ==> r.None?
    ensures r.Some? ==> ValidDigits(IntStrip(s)) || (IntStrip(s)[0] in "+-" && ValidDigits(IntStrip(s)[1..]))
    ensures r.Some? && r.value < 0 ==> IntStrip(s)[0] == '-'
  {
    var t := IntStrip(s);
    if |t| > 0 && t[0] == '-' then
      (if ValidDigits(t[1..]) then Some(-(DigitsValue(t[1..]) as int)) else None)
    else if |t| > 0 && t[0] == '+' then
      (if ValidDigits(t[1..]) then Some(DigitsValue(t[1..]) as int) else None)
    else if ValidDigits(t) then Some(DigitsValue(t) as int)
    else None
  }

  /**
   * The separator controls U+001C to U+001F count as whitespace for
   * `str.isspace` but not for `int()`, which rejects them.
   */
  lemma SeparatorNotIntSpace()
    ensures IsSpace('\U{001C}') && !IsIntSpace('\U{001C}')
    ensures ParseInt("\U{001C}1").None? && ParseInt(" 1\n") == Some(1)
  {
    assert IntStrip(" 1\n") == "1" by {
      assert " 1\n"[1..] == "1\n" && "1\n"[..1] == "1";
    }
    assert ValidDigits("1") && DigitsValue("1") == 1 by {
      assert "1"[..0] == [];
    }
    var s := "\U{001C}1";
    assert !IsIntSpace(s[0]) && !IsIntSpace(s[|s| - 1]);
    assert IntStrip(s) == s;
    assert !IsAsciiDigit(s[0]) && s[0] != '_' && s[0] !in "+-";
    assert !ValidDigits(s);
  }

  lemma {:induction false} DigitsValueOfNatToString(n: nat)
    ensures DigitsValue(NatToString(n)) == n
    decreases n
  {
    var s := NatToString(n);
    if n >= 10 {
      DigitsValueOfNatToString(n / 10);
      assert s[..|s| - 1] == NatToString(n / 10);
    }
  }

  lemma NoSpaceStrip(s: string)
    requires forall i :: 0 <= i < |s| ==> IsAsciiDigit(s[i]) || s[i] == '-'
    ensures IntStrip(s) == s
  {
  }

  lemma NatToStringIsValid(n: nat)
    ensures ValidDigits(NatToString(n))
  {
  }

  /** `int(str(i)) == i`: parsing inverts decimal rendering. */
  lemma ParseIntToString(i: int)
    ensures ParseInt(IntToString(i)) == Some(i)
  {
    if i < 0 {
      ParseNegative(-i);
    } else {
      ParseNonNegative(i);
    }
  }

  lemma ParseNegative(n: nat)
    requires n > 0
    ensures ParseInt("-" + NatToString(n)) == Some(-(n as int))
  {
    var digits := NatToString(n);
    var s := "-" + digits;
    DigitsValueOfNatToString(n);
    NatToStringIsValid(n);
    assert s[1..] == digits;
    NoSpaceStrip(s);
  }

  lemma ParseNonNegative(n: nat)
    ensures ParseInt(NatToString(n)) == Some(n)
  {
    var s := NatToString(n);
    DigitsValueOfNatToString(n);
    NatToStringIsValid(n);
    NoSpaceStrip(s);
    assert IsAsciiDigit(s[0]);
  }
}

=== FILE: tracelogger.dfy ===
/**
 * `TraceLogger`: the preprocessing every level method applies before the
 * standard dispatch. It resolves a caller-attribution marker into a suffix
 * of the message and moves unknown keyword arguments into `extra`.
 *
 * The call stack is an input. `stack[k]` is the frame `sys._getframe(k)`
 * returns inside `_get_caller_info`: index 0 is `_get_caller_info` itself,
 * 1 is `_process_params`, 2 is the level method and 3 is the caller of
 * the level method.
 */
module TraceLogger {
  import opened Wrappers
  import opened Strings
  import opened Values
  import Levels

  /** A frame: its module's `__name__` global (absent for some frames) and its code name. */
  datatype Frame = Frame(moduleName: Option<string>, funcName: string)

  const Unknown := "unknown"

  /** Frames between `_get_caller_info` and the call site of the level method. */
  const CallSiteOffset := 3

  // `sys._getframe` takes a C int.
  const CIntMin := -0x8000_0000
  const CIntMax := 0x7FFF_FFFF

  /** The three spellings of the attribution marker. */
  const FromKeys: set<string> := {"from", "from_caller", "from_"}

  /** The keyword arguments `Logger._log` accepts. */
  const StandardKwargs: set<string> := {"exc_info", "stack_info", "stacklevel", "extra"}

  const DefaultStackLevel := 2

  // ---- caller attribution ----

  /**
   * `_get_caller_info(depth)`: the module and function name of frame
   * `depth + 3`. A negative frame index gives the innermost frame, as
   * `sys._getframe` does. An index past the end of the stack gives
   * ("unknown", "unknown").
   */
  function CallerInfo(stack: seq<Frame>, depth: int): (r: (string, string))
    ensures depth + CallSiteOffset >= |stack| ==> r == (Unknown, Unknown)
    ensures 0 <= depth + CallSiteOffset < |stack| ==>
      r.1 == stack[depth + CallSiteOffset].funcName
      && r.0 == stack[depth + CallSiteOffset].moduleName.GetOr(Unknown)
  {
    var k := depth + CallSiteOffset;
    var i := if k < 0 then 0 else k;
    if i < |stack| then (stack[i].moduleName.GetOr(Unknown), stack[i].funcName)
    else (Unknown, Unknown)
  }

  /**
   * `_get_caller_info` as written. `None` means that `OverflowError` escapes:
   * `sys._getframe` rejects an index outside the C int range, and neither
   * `except` clause catches that error.
   */
  function CallerInfoAsWritten(stack: seq<Frame>, depth: int): (r: Option<(string, string)>)
    ensures r.Some? <==> CIntMin <= depth + CallSiteOffset <= CIntMax
    ensures r.Some? ==> r.value == CallerInfo(stack, depth)
  {
    var k := depth + CallSiteOffset;
    if k < CIntMin || k > CIntMax then None else Some(CallerInfo(stack, depth))
  }

  /** The tag text: `F()` at depth 0 or below, `from .F()` or `from M.F()` above. */
  function AttributionText(depth: int, callSiteModule: string, moduleName: string, funcName: string): string {
    if depth >= 1 then
      if moduleName == callSiteModule then "from ." + funcName + "()"
      else "from " + moduleName + "." + funcName + "()"
    else funcName + "()"
  }

  /**
   * The attribution for `depth`, resolved against the stack: the bare
   * function at depth 0 or below, and above it the function qualified by
   * "." when its module is the call site's, by its module name otherwise.
   */
  function Attribution(stack: seq<Frame>, depth: int): (r: string)
    ensures depth < 1 ==> r == CallerInfo(stack, depth).1 + "()"
    ensures depth >= 1 && CallerInfo(stack, depth).0 == CallerInfo(stack, 0).0 ==>
      r == "from ." + CallerInfo(stack, depth).1 + "()"
    ensures depth >= 1 && CallerInfo(stack, depth).0 != CallerInfo(stack, 0).0 ==>
      r == "from " + CallerInfo(stack, depth).0 + "." + CallerInfo(stack, depth).1 + "()"
  {
    var (m0, _) := CallerInfo(stack, 0);
    var (mN, nN) := CallerInfo(stack, depth);
    AttributionText(depth, m0, mN, nN)
  }

  /** Depth 0 names the function that made the logging call. */
  lemma AttributionAtCallSite(stack: seq<Frame>)
    requires |stack| > CallSiteOffset
    ensures Attribution(stack, 0) == stack[CallSiteOffset].funcName + "()"
  {
  }

  /**
   * Past the end of the stack the tag names "unknown" rather than leaving the
   * message unchanged.
   */
  lemma AttributionPastEnd(stack: seq<Frame>, depth: int)
    requires depth >= 1 && depth + CallSiteOffset >= |stack|
    requires |stack| > CallSiteOffset && stack[CallSiteOffset].moduleName.GetOr(Unknown) != Unknown
    ensures Attribution(stack, depth) == "from unknown.unknown()"
  {
    assert CallerInfo(stack, depth) == (Unknown, Unknown);
    assert CallerInfo(stack, 0).0 != Unknown;
  }

  /**
   * `int(v)`: `None` where Python raises. A finite float loses its fraction,
   * rounding toward zero; NaN raises `ValueError` and an infinity
   * `OverflowError` (see `IsInfinite`); containers, `None` and other objects
   * raise `TypeError`.
   */
  function ToInt(v: Value): (r: Option<int>)
    ensures v.VInt? ==> r == Some(v.i)
    ensures v.VBool? ==> r == Some(if v.b then 1 else 0)
    ensures v.VNone? || v.VList? || v.VDict? || v.VObject? ==> r.None?
    ensures v.VFloat? ==> (r.Some? <==> v.f.Finite?)
    ensures v.VFloat? && v.f.Finite? && v.f.x >= 0.0 ==> r.Some? && r.value as real <= v.f.x < r.value as real + 1.0
    ensures v.VFloat? && v.f.Finite? && v.f.x < 0.0 ==> r.Some? && r.value as real - 1.0 < v.f.x <= r.value as real
    ensures v.VStr? && r.Some? ==> r == ParseInt(v.s)
  {
    match v
    case VInt(i) => Some(i)
    case VBool(b) => Some(if b then 1 else 0)
    case VFloat(f) => if f.Finite? then Some(Trunc(f.x)) else None
    case VStr(s) => ParseInt(s)
    case _ => None
  }

  /** `int(v)` raises `OverflowError` rather than `ValueError` or `TypeError`. */
  predicate IsInfinite(v: Value) {
    v == VFloat(PosInf) || v == VFloat(NegInf)
  }

  /**
   * The marker value. All three spellings are removed from the keywords;
   * "from" wins over "from_caller", which wins over "from_", and without
   * any of them there is no marker.
   */
  function FromValue(kwargs: map<string, Value>): (r: Value)
    ensures FromKeys !! kwargs.Keys ==> r == VNone
    ensures !(FromKeys !! kwargs.Keys) ==> exists k | k in FromKeys && k in kwargs :: r == kwargs[k]
    ensures "from" in kwargs ==> r == kwargs["from"]
    ensures "from" !in kwargs && "from_caller" in kwargs ==> r == kwargs["from_caller"]
  {
    if "from" in kwargs then kwargs["from"]
    else if "from_caller" in kwargs then kwargs["from_caller"]
    else if "from_" in kwargs then kwargs["from_"]
    else VNone
  }

  /** The message text: the string itself, or `str(msg)` (given as `show`) for any other value. */
  function MessageText(msg: Value, show: Value -> string): string {
    if msg.VStr? then msg.s else show(msg)
  }

  /**
   * The message after attribution. It is unchanged without a marker or when
   * `int()` rejects the marker. Otherwise it is the text, a newline and the
   * escaped bracketed tag. `escape` is `rich.markup.escape`.
   */
  function AttributedMessage(msg: Value, fromVal: Value, stack: seq<Frame>, escape: string -> string, show: Value -> string): (r: Value)
    ensures fromVal.VNone? || ToInt(fromVal).None? ==> r == msg
    ensures !fromVal.VNone? && ToInt(fromVal).Some? ==>
      r == VStr(MessageText(msg, show) + "\n" + escape("[" + Attribution(stack, ToInt(fromVal).value) + "]"))
  {
    if fromVal.VNone? then msg
    else match ToInt(fromVal)
      case None => msg
      case Some(depth) => VStr(MessageText(msg, show) + "\n" + escape("[" + Attribution(stack, depth) + "]"))
  }

  /**
   * The message as the code computes it. `None` means the log call raises
   * `OverflowError`: `int()` of an infinite float, or `sys._getframe` given
   * an index outside the C int range; the `except` clause catches neither.
   * Everywhere else it agrees with the corrected `AttributedMessage`.
   */
  function AttributedMessageAsWritten(msg: Value, fromVal: Value, stack: seq<Frame>, escape: string -> string, show: Value -> string): (r: Option<Value>)
    ensures r.None? <==>
      && !fromVal.VNone?
      && (IsInfinite(fromVal) || (ToInt(fromVal).Some? && !(CIntMin <= ToInt(fromVal).value + CallSiteOffset <= CIntMax)))
    ensures r.Some? ==> r.value == AttributedMessage(msg, fromVal, stack, escape, show)
  {
    if fromVal.VNone? then Some(msg)
    else if IsInfinite(fromVal) then None
    else match ToInt(fromVal)
      case None => Some(msg)
      case Some(depth) =>
        match CallerInfoAsWritten(stack, depth)
        case None => None
        case Some(_) => Some(AttributedMessage(msg, fromVal, stack, escape, show))
  }

  /** A float marker attributes as its integer part does. */
  lemma FloatMarker(msg: Value, x: real, stack: seq<Frame>, escape: string -> string, show: Value -> string)
    ensures AttributedMessage(msg, VFloat(Finite(x)), stack, escape, show) == AttributedMessage(msg, VInt(Trunc(x)), stack, escape, show)
  {
  }

  /**
   * A marker of `float("inf")` makes the log call raise. The corrected model
   * leaves the message unchanged, as it does for every marker `int()` rejects.
   */
  lemma InfiniteMarkerRaises(msg: Value, stack: seq<Frame>, escape: string -> string, show: Value -> string)
    ensures AttributedMessageAsWritten(msg, VFloat(PosInf), stack, escape, show).None?
    ensures AttributedMessageAsWritten(msg, VFloat(NegInf), stack, escape, show).None?
    ensures AttributedMessage(msg, VFloat(PosInf), stack, escape, show) == msg
  {
  }

  /**
   * A marker of 2**31 - 3 makes the log call raise, although the stack is far
   * shorter. The corrected model resolves it to "unknown", as it does for
   * any index past the end of the stack.
   */
  lemma OverflowingMarkerRaises(msg: Value, stack: seq<Frame>, escape: string -> string, show: Value -> string)
    requires |stack| < CIntMax
    ensures AttributedMessageAsWritten(msg, VInt(CIntMax - 2), stack, escape, show).None?
    ensures CallerInfo(stack, CIntMax - 2) == (Unknown, Unknown)
  {
  }

  // ---- keyword relocation ----

  /** The keyword arguments that are neither markers nor accepted by `_log`. */
  function CustomKwargs(kwargs: map<string, Value>): map<string, Value> {
    map k | k in kwargs && k !in FromKeys && k !in StandardKwargs :: kwargs[k]
  }

  /**
   * The dictionary the custom keywords are merged into: the given `extra`
   * when it is a dict, a dict holding it under "_original_extra" when it is
   * not, an empty dict when there is none.
   */
  function ExtraBase(kwargs: map<string, Value>): map<string, Value> {
    if "extra" !in kwargs then map[]
    else if kwargs["extra"].VDict? then kwargs["extra"].entries
    else map["_original_extra" := kwargs["extra"]]
  }

  /** The keyword arguments `_process_params` hands on: only those `_log` accepts, `stacklevel` always. */
  function RelocatedKwargs(kwargs: map<string, Value>): (r: map<string, Value>)
    ensures r.Keys <= StandardKwargs && "stacklevel" in r
  {
    var kept := map k | k in kwargs && k in StandardKwargs :: kwargs[k];
    var custom := CustomKwargs(kwargs);
    var withExtra := if custom == map[] then kept else kept["extra" := VDict(ExtraBase(kwargs) + custom)];
    if "stacklevel" in withExtra then withExtra else withExtra["stacklevel" := VInt(DefaultStackLevel)]
  }

  /**
   * What relocation guarantees: only keywords `_log` accepts remain, the
   * markers are gone, `stacklevel` defaults to 2, `exc_info` and `stack_info`
   * pass through, and every custom keyword lands in `extra`, over what the
   * given `extra` held; without custom keywords `extra` is left as given.
   */
  lemma RelocatedShape(kwargs: map<string, Value>)
    ensures RelocatedKwargs(kwargs).Keys <= StandardKwargs
    ensures "stacklevel" in RelocatedKwargs(kwargs)
    ensures RelocatedKwargs(kwargs)["stacklevel"] ==
      if "stacklevel" in kwargs then kwargs["stacklevel"] else VInt(DefaultStackLevel)
    ensures forall k | k in {"exc_info", "stack_info"} ::
      (k in RelocatedKwargs(kwargs) <==> k in kwargs) && (k in kwargs ==> RelocatedKwargs(kwargs)[k] == kwargs[k])
    ensures CustomKwargs(kwargs) == map[] ==>
      && ("extra" in RelocatedKwargs(kwargs) <==> "extra" in kwargs)
      && ("extra" in kwargs ==> RelocatedKwargs(kwargs)["extra"] == kwargs["extra"])
    ensures CustomKwargs(kwargs) != map[] ==>
      && "extra" in RelocatedKwargs(kwargs) && RelocatedKwargs(kwargs)["extra"].VDict?
      && (forall k | k in kwargs && k !in FromKeys && k !in StandardKwargs ::
            k in RelocatedKwargs(kwargs)["extra"].entries && RelocatedKwargs(kwargs)["extra"].entries[k] == kwargs[k])
      && ("extra" in kwargs && !kwargs["extra"].VDict? && "_original_extra" !in CustomKwargs(kwargs) ==>
            RelocatedKwargs(kwargs)["extra"].entries["_original_extra"] == kwargs["extra"])
      && ("extra" in kwargs && kwargs["extra"].VDict? ==>
            forall k | k in kwargs["extra"].entries && k !in CustomKwargs(kwargs) ::
              RelocatedKwargs(kwargs)["extra"].entries[k] == kwargs["extra"].entries[k])
  {
  }

  /**
   * The loop of `_process_params` over the keyword names: every name outside
   * the standard set is popped from `kwargs` into the custom dictionary.
   */
  method MoveCustom(kwargs: map<string, Value>) returns (kept: map<string, Value>, custom: map<string, Value>)
    ensures kept == map k | k in kwargs && k in StandardKwargs :: kwargs[k]
    ensures custom == map k | k in kwargs && k !in StandardKwargs :: kwargs[k]
  {
    kept, custom := kwargs, map[];
    var keys := kwargs.Keys;
    while keys != {}
      invariant keys <= kwargs.Keys
      invariant forall k :: k in custom <==> k in kwargs && k !in keys && k !in StandardKwargs
      invariant forall k :: k in kept <==> k in kwargs && (k in keys || k in StandardKwargs)
      invariant forall k | k in custom :: custom[k] == kwargs[k]
      invariant forall k | k in kept :: kept[k] == kwargs[k]
      decreases keys
    {
      var key :| key in keys;
      if key !in StandardKwargs {
        custom := custom[key := kept[key]];
        kept := kept - {key};
      }
      keys := keys - {key};
    }
  }

  /**
   * `_process_params`: pops the marker, attributes the message, moves every
   * custom keyword into `extra` and defaults `stacklevel` to 2.
   */
  method ProcessParams(msg: Value, kwargs: map<string, Value>, stack: seq<Frame>, escape: string -> string, show: Value -> string)
    returns (newMsg: Value, newKwargs: map<string, Value>)
    ensures newMsg == AttributedMessage(msg, FromValue(kwargs), stack, escape, show)
    ensures newKwargs == RelocatedKwargs(kwargs)
  {
    // The nested pops remove all three spellings; the outermost one present wins.
    var fromVal := FromValue(kwargs);
    var kw := kwargs - FromKeys;
    newMsg := AttributedMessage(msg, fromVal, stack, escape, show);

    var extra := if "extra" in kw then kw["extra"] else VDict(map[]);
    var custom;
    kw, custom := MoveCustom(kw);
    assert custom == CustomKwargs(kwargs);
    assert kw == map k | k in kwargs && k in StandardKwargs :: kwargs[k];
    if custom != map[] {
      var base := if extra.VDict? then extra.entries else map["_original_extra" := extra];
      assert base == ExtraBase(kwargs);
      kw := kw["extra" := VDict(base + custom)];
    }
    if "stacklevel" !in kw {
      kw := kw["stacklevel" := VInt(DefaultStackLevel)];
    }
    newKwargs := kw;
  }

  /** Relocated keywords are a fixed point: there is nothing left to move. */
  lemma RelocateIdempotent(kwargs: map<string, Value>)
    ensures FromValue(RelocatedKwargs(kwargs)) == VNone
    ensures CustomKwargs(RelocatedKwargs(kwargs)) == map[]
    ensures RelocatedKwargs(RelocatedKwargs(kwargs)) == RelocatedKwargs(kwargs)
  {
    var r := RelocatedKwargs(kwargs);
    assert forall k | k in r :: k in StandardKwargs;
    assert CustomKwargs(r) == map[];
  }

  // ---- level methods ----

  /** The level methods of `TraceLogger`. */
  datatype LevelMethod =
    | TraceMethod | DebugMethod | InfoMethod | WarningMethod | ErrorMethod | CriticalMethod
    | ExceptionMethod
    | LogMethod(level: int)

  function MethodLevel(m: LevelMethod): int {
    match m
    case TraceMethod => Levels.TraceLevelNum
    case DebugMethod => Levels.Debug
    case InfoMethod => Levels.Info
    case WarningMethod => Levels.Warning
    case ErrorMethod => Levels.Error
    case CriticalMethod => Levels.Critical
    case ExceptionMethod => Levels.Error
    case LogMethod(level) => level
  }

  /** `Logger.exception` passes `exc_info=True` unless the caller gave one. */
  function WithExcInfo(kwargs: map<string, Value>): map<string, Value> {
    if "exc_info" in kwargs then kwargs else kwargs["exc_info" := VBool(true)]
  }

  /**
   * One call of a level method: preprocessing, then the standard dispatch,
   * which reaches `_log` only when the logger is enabled for the level
   * (`enabled` stands for `isEnabledFor`). `exception` goes through
   * `Logger.exception`, which calls the overridden `error` and so processes
   * the keywords a second time.
   */
  method Dispatch(m: LevelMethod, msg: Value, args: seq<Value>, kwargs: map<string, Value>,
                  stack: seq<Frame>, escape: string -> string, show: Value -> string, enabled: int -> bool)
    returns (call: Option<Levels.LogCall>)
    ensures call.Some? <==> enabled(MethodLevel(m))
    ensures call.Some? ==>
      && call.value.level == MethodLevel(m)
      && call.value.msg == AttributedMessage(msg, FromValue(kwargs), stack, escape, show)
      && call.value.args == args
      && call.value.kwargs.Keys <= StandardKwargs
      && call.value.kwargs == (if m.ExceptionMethod? then WithExcInfo(RelocatedKwargs(kwargs)) else RelocatedKwargs(kwargs))
    ensures m.TraceMethod? ==>
      call == Levels.PatchedTrace(AttributedMessage(msg, FromValue(kwargs), stack, escape, show), args, RelocatedKwargs(kwargs), enabled)
  {
    var m1, kw1 := ProcessParams(msg, kwargs, stack, escape, show);
    if m.ExceptionMethod? {
      kw1 := WithExcInfo(kw1);
      RelocateIdempotent(kwargs);
      var m2, kw2 := ProcessParams(m1, kw1, stack, escape, show);
      assert RelocatedKwargs(kw1) == kw1;
      m1, kw1 := m2, kw2;
    }
    var level := MethodLevel(m);
    if enabled(level) {
      call := Some(Levels.LogCall(level, m1, args, kw1));
    } else {
      call := None;
    }
  }
}

=== FILE: values.dfy ===
/**
 * Python values as they travel through keyword arguments, `extra` and log
 * record attributes, and the JSON values `json.dumps(..., default=str)`
 * turns them into.
 */
module Values {

  /** A Python float: a finite value (taken as an exact real), an infinity or NaN. */
  datatype Float = Finite(x: real) | PosInf | NegInf | NaN

  /**
   * A Python value. `VList` stands for lists and tuples, `VDict` for dicts
   * with string keys, `VObject` for an object of any class other than these
   * (and other than `float`, `int`, `bool`, `str` and `None`); `text` is what
   * `str()` returns for it.
   */
  datatype Value =
    | VNone
    | VBool(b: bool)
    | VInt(i: int)
    | VFloat(f: Float)
    | VStr(s: string)
    | VList(items: seq<Value>)
    | VDict(entries: map<string, Value>)
    | VObject(text: string)

  /** A JSON value; `JFloat` is a number written with a fraction, or `Infinity`, `-Infinity`, `NaN`. */
  datatype Json =
    | JNull
    | JBool(b: bool)
    | JInt(i: int)
    | JFloat(f: Float)
    | JStr(s: string)
    | JArray(items: seq<Json>)
    | JObject(fields: map<string, Json>)

  /** `int()` of a finite float: the integer part, rounding toward zero. */
  function Trunc(x: real): (n: int)
    ensures x >= 0.0 ==> 0 <= n && n as real <= x < n as real + 1.0
    ensures x < 0.0 ==> n <= 0 && n as real - 1.0 < x <= n as real
  {
    if x >= 0.0 then x.Floor else -((-x).Floor)
  }

  /** Python truthiness: `None`, `False`, zero and empty containers are false. */
  predicate Truthy(v: Value) {
    match v
    case VNone => false
    case VBool(b) => b
    case VInt(i) => i != 0
    case VFloat(f) => f != Finite(0.0)
    case VStr(s) => s != []
    case VList(items) => items != []
    case VDict(entries) => entries != map[]
    case VObject(_) => true
  }

  /** The value contains no object that `json.dumps` cannot serialise natively. */
  predicate Serializable(v: Value) {
    match v
    case VObject(_) => false
    case VList(items) => forall x | x in items :: Serializable(x)
    case VDict(entries) => forall k | k in entries :: Serializable(entries[k])
    case _ => true
  }

  /**
   * `json.dumps(v, default=str)`: natively serialisable values map to their
   * JSON counterpart and every other object, at any depth, to its `str()`.
   */
  function ToJson(v: Value): (r: Json)
    ensures r.JNull? <==> v.VNone?
    ensures r.JStr? <==> v.VStr? || v.VObject?
    ensures r.JFloat? <==> v.VFloat?
    ensures r.JArray? <==> v.VList?
    ensures r.JObject? <==> v.VDict?
    ensures r.JArray? ==> |r.items| == |v.items|
    ensures r.JObject? ==> r.fields.Keys == v.entries.Keys
  {
    match v
    case VNone => JNull
    case VBool(b) => JBool(b)
    case VInt(i) => JInt(i)
    case VFloat(f) => JFloat(f)
    case VStr(s) => JStr(s)
    case VList(items) => JArray(seq(|items|, k requires 0 <= k < |items| => ToJson(items[k])))
    case VDict(entries) => JObject(map k | k in entries :: ToJson(entries[k]))
    case VObject(text) => JStr(text)
  }

  /** `json.loads` of a decoded document, as a Python value. */
  function FromJson(j: Json): Value {
    match j
    case JNull => VNone
    case JBool(b) => VBool(b)
    case JInt(i) => VInt(i)
    case JFloat(f) => VFloat(f)
    case JStr(s) => VStr(s)
    case JArray(items) => VList(seq(|items|, k requires 0 <= k < |items| => FromJson(items[k])))
    case JObject(fields) => VDict(map k | k in fields :: FromJson(fields[k]))
  }

  /** Natively serialisable values survive the encoding unchanged. */
  lemma {:induction false} JsonRoundTrip(v: Value)
    requires Serializable(v)
    ensures FromJson(ToJson(v)) == v
  {
    match v
    case VList(items) =>
      forall k | 0 <= k < |items| ensures FromJson(ToJson(items[k])) == items[k] {
        JsonRoundTrip(items[k]);
      }
    case VDict(entries) =>
      forall k | k in entries ensures FromJson(ToJson(entries[k])) == entries[k] {
        JsonRoundTrip(entries[k]);
      }
    case _ =>
  }

  /**
   * Any other object is emitted as its string form, never as an error, and
   * reads back as that string; a float, finite or not, stays a number.
   */
  lemma ObjectsAsStrings(text: string, f: Float)
    ensures ToJson(VObject(text)) == JStr(text)
    ensures FromJson(ToJson(VObject(text))) == VStr(text)
    ensures ToJson(VFloat(f)).JFloat? && FromJson(ToJson(VFloat(f))) == VFloat(f)
  {
  }
}

=== FILE: wrappers.dfy ===
/** Option and Result, used for the source's absent values and raised errors. */
module Wrappers {

  datatype Option<+T> = None | Some(value: T) {
    function GetOr(default: T): T {
      match this
      case Some(v) => v
      case None => default
    }
  }

  datatype Result<+R, +E> = Success(value: R) | Failure(error: E)
}
